=== FILE: README.md ===
# mmhscanner core, modelled in Dafny

mmhscanner polls the MakeMeHost game table, which lists the Warcraft III
hosting bots and the game each is hosting. It classifies each title into a
game type by pattern and keeps a registry of the hosted games it follows.
From one poll to the next it emits hosted, updated and removed events. A
Discord channel that follows some game types does four things:

- it pings `@here` when a game of a followed type is hosted;
- it deletes the ping when the game goes away;
- it keeps a single status message at the bottom of the channel that lists
  the followed types and the hosted games;
- at start-up and at shutdown it deletes its own stale messages.

The model is functional. Every component is an immutable record, and every
operation is a pure step from one state to the next. A Discord channel is
`Chat.Channel`: a sequence of messages with opaque ids, oldest first. Sending,
deleting and editing a message are functions on that value. Executors, timers
and locks are gone. Each object's operations apply one after another in the
order its single-threaded executor would run them.

| module | file | models |
|---|---|---|
| `Common` | common.dfy | `Option`, `Result` |
| `Strings` | strings.dfy | lexicographic order of `String`, padding, `reduce`-style joining |
| `TreeMap` | treemap.dfy | the `TreeMap<String, _>` of a channel's watched games, as a sorted association list |
| `Extraction` | extraction.dfy | `gameDataExtraction.kt`: parsing the table's rows |
| `GameTypes` | classifier.dfy | `GameType` and `shouldWatch` in `watcher.kt` |
| `Watcher` | watcher.dfy | `GameInfo` and `scan` in `watcher.kt` |
| `Chat` | chat.dfy | the channel operations the bot uses |
| `InfoMessageHolder` | info_holder.dfy | `infoMessageHolder.kt` |
| `NotificationMessagesHolder` | notification_holder.dfy | `notificationMessagesHolder.kt` |
| `Rendering` | rendering.dfy | `buildHeaderString` and `buildGameListString` in `notificationTarget.kt` |
| `NotificationTarget` | notification_target.dfy | the rest of `notificationTarget.kt` |

Regular-expression matching and lower-casing are parameters of the model, in
the `GameTypes.Patterns` record. Upper-casing is a parameter as well
(`upper`). The proofs are about the order in which patterns are tried and
about the ignore rule, not about regex semantics.

The files come from different revisions and do not agree on some names. The
model uses one shared vocabulary:

- `GameInfo.bot` and `GameInfo.type` in watcher.kt are the `botName` and
  `gameType` that notificationTarget.kt reads. The model uses `botName` and
  `gameType`.
- The row's player count is `ingameCounter` in gameDataExtraction.kt and
  `playerCount` in watcher.kt. The model keeps `GameRow.ingameCounter`, and
  `GameInfo.playerCount` is copied from it.
- watcher.kt calls a free `extractRows()` that returns a non-null list.
  gameDataExtraction.kt has a method that returns a nullable list. So
  `Watcher.Scan` takes the outcome of the fetch as a
  `Result<seq<GameRow>, Exception>`, and any failure leaves the registry
  alone, as the `catch` blocks of `scan` do.
- The `updated` flag of `GameInfo` is modelled as the set of bot names seen
  during the row loop. The flag only serves to tell the sweep which entries
  were seen.

## Model

| member | source | states |
|---|---|---|
| Extraction.RealmValueOf | src/main/kotlin/net/lmoriarty/scanner/gameDataExtraction.kt:8-11 | `Realm.valueOf` succeeds exactly on `USA` and `EUROPE`, gives back the realm of that name, and otherwise fails with IllegalArgument |
| Extraction.Rethrow | src/main/kotlin/net/lmoriarty/scanner/gameDataExtraction.kt:46-49 | the catch passes a DataExtractException through unchanged and wraps anything else as "Unexpected parsing error", keeping it as cause |
| Extraction.ExtractRow | src/main/kotlin/net/lmoriarty/scanner/gameDataExtraction.kt:33-50 | fewer than 4 columns fails with "Not enough columns in table!"; success needs at least 5 columns and an upper-cased realm of USA or EUROPE; on success it gives bot = col 0, realm = upper(col 1), game = col 3, counter = col 4; every failure is a DataExtractException, and past the column check it is the wrapped one |
| Extraction.ExtractRowRoundTrip | src/main/kotlin/net/lmoriarty/scanner/gameDataExtraction.kt:41-45 | a row written out as five columns is read back as the same row, whatever the ignored third column holds |
| Extraction.ExtractAll | src/main/kotlin/net/lmoriarty/scanner/gameDataExtraction.kt:59-61 | all rows succeed iff each does, giving one GameRow per row in order; otherwise the error is that of the first failing row |
| Extraction.ExtractRows | src/main/kotlin/net/lmoriarty/scanner/gameDataExtraction.kt:52-67 | an IOException becomes MakeMeHostConnectException("Failed to fetch data from MMH."); a null document gives null; an empty table throws when the header is dropped; otherwise one row per table row after the header, in order, and one bad row fails the whole call |
| GameTypes.Rank | src/main/kotlin/net/lmoriarty/scanner/watcher.kt:17-31 | the position of a type in the enum's declaration order |
| GameTypes.DeclarationOrderDistinct | src/main/kotlin/net/lmoriarty/scanner/watcher.kt:17-31 | `GameType.values()` lists every game type, and lists each of them once |
| GameTypes.FirstMatch | src/main/kotlin/net/lmoriarty/scanner/watcher.kt:59-65 | the search over the types gives nothing iff no type matches, and otherwise a matching type with no matching type before it |
| GameTypes.FirstMatchIsLowestRank | src/main/kotlin/net/lmoriarty/scanner/watcher.kt:59-65 | over the declared types, the type found is the matching type of lowest declaration rank |
| GameTypes.ShouldWatch | src/main/kotlin/net/lmoriarty/scanner/watcher.kt:54-57 | an ignored lower-cased title classifies to null, whatever the type patterns say |
| GameTypes.ShouldWatchIsFirstMatch | src/main/kotlin/net/lmoriarty/scanner/watcher.kt:54-66 | shouldWatch gives t iff the title is not ignored, t matches, and no earlier-declared type matches; it gives null iff the title is ignored or no type matches |
| GameTypes.EarlierTypeWins | src/main/kotlin/net/lmoriarty/scanner/watcher.kt:59-63 | when two types both match a title that is not ignored, the one declared later is never chosen |
| GameTypes.AocBeatsRp | src/main/kotlin/net/lmoriarty/scanner/watcher.kt:18-31 | a title that is not ignored, matches both AOC and RP, and matches none of ROTRP, YARP and SOTDRP (the three types declared before AOC) is classified AOC |
| Watcher.Initial | src/main/kotlin/net/lmoriarty/scanner/watcher.kt:43-44 | the empty registry with counter 0 satisfies the registry invariant |
| Watcher.Classify | src/main/kotlin/net/lmoriarty/scanner/watcher.kt:70 | the classified rows are exactly the rows whose title classifies to a type, each paired with that type |
| Watcher.ClassifyOne | src/main/kotlin/net/lmoriarty/scanner/watcher.kt:70 | one row classifies to itself paired with its type when `shouldWatch` gives one, and to nothing otherwise |
| Watcher.ClassifyAppend | src/main/kotlin/net/lmoriarty/scanner/watcher.kt:70 | classifying distributes over concatenation, so with ClassifyOne the result is the rows that classify, in row order, each once |
| Watcher.ClassifyBotNames | src/main/kotlin/net/lmoriarty/scanner/watcher.kt:70 | the bot names of the classified rows are the bots with a watched title |
| Watcher.ApplyRow | src/main/kotlin/net/lmoriarty/scanner/watcher.kt:73-111 | a new bot gets id = counter, the counter grows by one, and one hosted event fires; for the same type with a changed title or count, the old values move to oldName/oldPlayerCount and exactly one updated event fires; with nothing changed there is no event and no change; a type change fires removed(old) then hosted(new), never an update; other entries are unchanged |
| Watcher.ApplyRowIds | src/main/kotlin/net/lmoriarty/scanner/watcher.kt:100 | one row hosts at most one game, under the current counter value, and the counter never decreases |
| Watcher.ApplyRowValid | src/main/kotlin/net/lmoriarty/scanner/watcher.kt:76-108 | one row keeps every entry filed under its own bot with distinct ids below the counter, and fires events only about its own bot |
| Watcher.RowPhase | src/main/kotlin/net/lmoriarty/scanner/watcher.kt:73-111 | after the row loop the seen set and the registry's keys grow by exactly the classified bots |
| Watcher.RowPhaseKeepsOthers | src/main/kotlin/net/lmoriarty/scanner/watcher.kt:73-111 | bots without a row are left alone by the row loop |
| Watcher.RowPhaseDescribes | src/main/kotlin/net/lmoriarty/scanner/watcher.kt:73-111 | after the row loop each classified bot's entry has the title, count and type of the last of its rows: a later row for the same bot overrides an earlier one |
| Watcher.RowPhaseIds | src/main/kotlin/net/lmoriarty/scanner/watcher.kt:100 | the hosted events of the row loop carry fresh ids in [counter, counter'), increasing in event order |
| Watcher.RowPhaseValid | src/main/kotlin/net/lmoriarty/scanner/watcher.kt:73-111 | the row loop keeps the registry invariant and fires events only about bots with a row |
| Watcher.RowPhaseQuiet | src/main/kotlin/net/lmoriarty/scanner/watcher.kt:79-89 | rows that each repeat their bot's entry (same type, title and count) fire no event and leave the registry as it was |
| Watcher.Sweep | src/main/kotlin/net/lmoriarty/scanner/watcher.kt:113-122 | the sweep keeps exactly the seen entries, unchanged, and fires one removed event per unseen entry, in the map's iteration order |
| Watcher.Scan | src/main/kotlin/net/lmoriarty/scanner/watcher.kt:68-130 | a failed fetch changes nothing and fires nothing; otherwise the events are exactly the row loop's events, in row order, followed by a sweep that removes each unseen bot once; the registry is the row loop's without the unseen bots, so its keys are exactly the watched bots; vanished bots are removed with a removed event; each entry matches one of its rows; the counter never decreases and new ids are fresh and increasing; the invariant is kept; events concern only tracked or watched bots |
| Watcher.ScanQuiet | src/main/kotlin/net/lmoriarty/scanner/watcher.kt:73-122 | a poll that shows every tracked bot again with the same type, title and count, and no other watched game, fires no event and changes no entry |
| Chat.Send | src/main/kotlin/net/lmoriarty/scanner/notificationTarget.kt:66 | sending adds exactly one message with the next id, which becomes the latest; other messages are untouched and the channel stays well formed |
| Chat.Delete | src/main/kotlin/net/lmoriarty/scanner/notificationTarget.kt:71 | deleting removes exactly the message with that id, leaves the rest in order, and deleting an absent message changes nothing |
| Chat.Edit | src/main/kotlin/net/lmoriarty/scanner/notificationTarget.kt:74 | editing replaces the text and embed of that message only; ids, authors and order stay |
| Chat.Latest | src/main/kotlin/net/lmoriarty/scanner/notificationTarget.kt:69-70 | the message at the bottom of the channel, present whenever the channel is not empty; in a valid channel its id is the highest |
| Chat.Recent | src/main/kotlin/net/lmoriarty/scanner/notificationTarget.kt:152 | the history fetch returns the newest n messages (all of them when there are fewer): a suffix of the channel in posting order |
| InfoMessageHolder.Initial | src/main/kotlin/net/lmoriarty/scanner/infoMessageHolder.kt:13-16 | no message tracked and no update pending |
| InfoMessageHolder.PostInfo | src/main/kotlin/net/lmoriarty/scanner/infoMessageHolder.kt:37-43 | the previously tracked message is deleted, and a new message with the contained content is posted, becomes the latest, and is tracked |
| InfoMessageHolder.EditInfo | src/main/kotlin/net/lmoriarty/scanner/infoMessageHolder.kt:25-35 | a tracked message that still exists is edited in place and stays tracked, with no message added or removed; otherwise a new one is posted; either way the tracked message shows the contained content |
| InfoMessageHolder.Update | src/main/kotlin/net/lmoriarty/scanner/infoMessageHolder.kt:79-86 | the contained string and embed become exactly the given ones, and the tracked message shows them |
| InfoMessageHolder.LatestUpdateWins | src/main/kotlin/net/lmoriarty/scanner/infoMessageHolder.kt:79-86 | after two updates the tracked message shows the second content |
| InfoMessageHolder.Renew | src/main/kotlin/net/lmoriarty/scanner/infoMessageHolder.kt:67-74 | renew schedules a repost only when requiresUpdate is false, and sets it |
| InfoMessageHolder.RenewBurst | src/main/kotlin/net/lmoriarty/scanner/infoMessageHolder.kt:67-74 | any burst of renew calls has the effect of a single one: at most one repost is scheduled |
| InfoMessageHolder.Complete | src/main/kotlin/net/lmoriarty/scanner/infoMessageHolder.kt:50-53 | the scheduled repost posts anew, tracks the new latest message, and clears requiresUpdate |
| InfoMessageHolder.Cancel | src/main/kotlin/net/lmoriarty/scanner/infoMessageHolder.kt:55-59 | on timeout the repost is cancelled and requiresUpdate is not cleared |
| InfoMessageHolder.CancelledRenewStaysOff | src/main/kotlin/net/lmoriarty/scanner/infoMessageHolder.kt:48-74 | after a cancelled repost no number of renew calls schedules another one |
| InfoMessageHolder.PostRetargetsTracking | src/main/kotlin/net/lmoriarty/scanner/infoMessageHolder.kt:92-96 | after a post exactly the new message is tracked |
| InfoMessageHolder.IsMessageTracked | src/main/kotlin/net/lmoriarty/scanner/infoMessageHolder.kt:92-96 | a message is tracked iff it is the status message the holder currently holds |
| NotificationMessagesHolder.SendNotification | src/main/kotlin/net/lmoriarty/scanner/notificationMessagesHolder.kt:16-28 | returns true and tracks a new ping iff the game id was untracked; otherwise nothing changes |
| NotificationMessagesHolder.SendTwiceSendsOnce | src/main/kotlin/net/lmoriarty/scanner/notificationMessagesHolder.kt:16-28 | a second notification for the same id sends nothing and changes nothing |
| NotificationMessagesHolder.RemoveNotificationAsWritten | src/main/kotlin/net/lmoriarty/scanner/notificationMessagesHolder.kt:33-41 | as written, the ping is deleted if tracked and the map is left unchanged; an untracked id changes nothing |
| NotificationMessagesHolder.RemovedPingBlocksResend | src/main/kotlin/net/lmoriarty/scanner/notificationMessagesHolder.kt:33-41 | as written, a removed ping stays tracked although deleted, so the game can never be pinged again |
| NotificationMessagesHolder.RemoveNotification | src/main/kotlin/net/lmoriarty/scanner/notificationMessagesHolder.kt:33-41 | corrected: the ping is deleted and the id is no longer tracked |
| NotificationMessagesHolder.RemoveThenSendPingsAgain | src/main/kotlin/net/lmoriarty/scanner/notificationMessagesHolder.kt:33-41 | corrected: after a remove the next notification for the id pings again |
| NotificationMessagesHolder.Shutdown | src/main/kotlin/net/lmoriarty/scanner/notificationMessagesHolder.kt:53-57 | after shutdown the map is empty and no message is tracked |
| NotificationMessagesHolder.SentPingIsTracked | src/main/kotlin/net/lmoriarty/scanner/notificationMessagesHolder.kt:47-51 | a ping just sent is a tracked message |
| NotificationMessagesHolder.IsMessageTracked | src/main/kotlin/net/lmoriarty/scanner/notificationMessagesHolder.kt:47-51 | a message is tracked iff some game id maps to it (`containsValue`) |
| TreeMap.Get | src/main/kotlin/net/lmoriarty/scanner/notificationTarget.kt:172 | a lookup finds a value iff the key is in the map |
| TreeMap.Put | src/main/kotlin/net/lmoriarty/scanner/notificationTarget.kt:177 | afterwards the key maps to the value, the order is kept, and every other key keeps its value |
| TreeMap.Remove | src/main/kotlin/net/lmoriarty/scanner/notificationTarget.kt:181 | afterwards the key is absent, the order is kept, and every other key keeps its value |
| Strings.PadRight | src/main/kotlin/net/lmoriarty/scanner/notificationTarget.kt:99 | a bot name padded to the width keeps its characters and is followed only by spaces, up to exactly the width |
| Strings.JoinContainsParts | src/main/kotlin/net/lmoriarty/scanner/notificationTarget.kt:81 | each part of the reduce-joined string sits at its offset, with exactly one separator between consecutive parts |
| Rendering.HeaderString | src/main/kotlin/net/lmoriarty/scanner/notificationTarget.kt:79-83 | the header exists iff some type is followed (reduce on an empty list throws) |
| Rendering.HeaderNamesEveryType | src/main/kotlin/net/lmoriarty/scanner/notificationTarget.kt:79-83 | the header starts with its label and names every followed type |
| Rendering.Listed | src/main/kotlin/net/lmoriarty/scanner/notificationTarget.kt:81 | the followed types that `types.map` walks, listed in declaration order in place of the HashSet's unspecified order: a type is listed exactly when it is followed and declared; never longer than the declaration order; no type twice when the declaration order has no repeats |
| Rendering.TypeNamesListed | src/main/kotlin/net/lmoriarty/scanner/notificationTarget.kt:81 | the header names are the listed types mapped through `toString()`: one name per listed type, in the same positions |
| Rendering.HeaderListsExactlyFollowed | src/main/kotlin/net/lmoriarty/scanner/notificationTarget.kt:79-83 | the header is the label, then the names of exactly the followed types, each once, joined by ", ", then the closing mark in the fallback; no type that is not followed is named |
| Rendering.Longest | src/main/kotlin/net/lmoriarty/scanner/notificationTarget.kt:91-95 | the column width is the length of the longest bot name, and 0 when there are no games |
| Rendering.GameList | src/main/kotlin/net/lmoriarty/scanner/notificationTarget.kt:85-108 | corrected: with no games, the text is "No games hosted right now.", in backticks in the fallback |
| Rendering.GameListAsWritten | src/main/kotlin/net/lmoriarty/scanner/notificationTarget.kt:85-108 | as written: with no games, the same texts as the corrected builder |
| Rendering.GameListIsLines | src/main/kotlin/net/lmoriarty/scanner/notificationTarget.kt:97-101 | a non-empty list is the fallback header, then one line per game in map order |
| Rendering.LineLayout | src/main/kotlin/net/lmoriarty/scanner/notificationTarget.kt:98-100 | a line is an opening backtick (or "\| "), the bot name right-padded with spaces to the longest name, then " --- (" at a fixed column, ending in a newline |
| Rendering.LinesInBotOrder | src/main/kotlin/net/lmoriarty/scanner/notificationTarget.kt:97-101 | for a sorted map, line i shows bot i's name right after the opening mark, and an earlier line's bot name comes before a later one's |
| Rendering.FallbackLinesAsWrittenAreBare | src/main/kotlin/net/lmoriarty/scanner/notificationTarget.kt:98 | as written, every fallback line is just "\| " |
| Rendering.FallbackSingleGame | src/main/kotlin/net/lmoriarty/scanner/notificationTarget.kt:85-108 | for one game with embeds off, the as-written text is the header and "\| " whatever the game, while the corrected text is the header and that game's line, which names the bot |
| Rendering.EmbedListAsWrittenAgrees | src/main/kotlin/net/lmoriarty/scanner/notificationTarget.kt:97-101 | without the fallback, the as-written and the corrected game lists are the same text: the precedence slip only touches fallback lines |
| NotificationTarget.Empty | src/main/kotlin/net/lmoriarty/scanner/notificationTarget.kt:22-29 | a fresh target follows the given types, has no status message, no pings and no watched games, and satisfies the invariant |
| NotificationTarget.UpdateGame | src/main/kotlin/net/lmoriarty/scanner/notificationTarget.kt:171-178 | a ping is sent and tracked only when the bot is not yet watched; the latest info is always stored under the bot name and other bots keep theirs |
| NotificationTarget.RemoveGame | src/main/kotlin/net/lmoriarty/scanner/notificationTarget.kt:180-184 | the bot leaves both the watched games and the pings, and its ping is deleted if there was one; an unwatched game changes nothing |
| NotificationTarget.UpdateGameValid | src/main/kotlin/net/lmoriarty/scanner/notificationTarget.kt:171-178 | an update keeps the games ordered, filed under their bot, and pings only for watched games |
| NotificationTarget.RemoveGameValid | src/main/kotlin/net/lmoriarty/scanner/notificationTarget.kt:180-184 | a remove keeps the same invariant |
| NotificationTarget.ProcessGameUpdate | src/main/kotlin/net/lmoriarty/scanner/notificationTarget.kt:190-196 | an update of a type not followed changes nothing; otherwise it is updateGame |
| NotificationTarget.ProcessGameRemove | src/main/kotlin/net/lmoriarty/scanner/notificationTarget.kt:202-208 | a remove of a type not followed changes nothing; otherwise it is removeGame |
| NotificationTarget.UpdateTwicePingsOnce | src/main/kotlin/net/lmoriarty/scanner/notificationTarget.kt:171-178 | repeated updates of a watched bot add no ping, and the latest info is stored |
| NotificationTarget.RemoveThenUpdatePingsAgain | src/main/kotlin/net/lmoriarty/scanner/notificationTarget.kt:171-184 | after a remove, the next update of the bot pings again |
| NotificationTarget.UpdateAll | src/main/kotlin/net/lmoriarty/scanner/notificationTarget.kt:171-222 | offering a list of games adds exactly the bots of the followed types, keeps the invariant, and leaves other bots alone; each newly watched bot gets one ping under a new id, which is kept; the pings already kept stay as they were; the channel gains exactly the new pings |
| NotificationTarget.AddGameTypes | src/main/kotlin/net/lmoriarty/scanner/notificationTarget.kt:214-224 | afterwards the types are the old set plus the added ones, and the watched bots grow by exactly the watcher's bots whose type is now followed; each of those new bots is pinged under a new id and the ping is kept, the pings already kept stay, and the channel gains exactly the new pings |
| NotificationTarget.RemoveAll | src/main/kotlin/net/lmoriarty/scanner/notificationTarget.kt:234-238 | handing games to `removeGame` drops exactly their bots, keeps every other bot's entry, forgets exactly their pings, and deletes exactly those pings' messages |
| NotificationTarget.UpdateAllKeepsMessages | src/main/kotlin/net/lmoriarty/scanner/notificationTarget.kt:171-178 | offering games only posts: the channel stays well formed and every earlier message is still found under its id |
| NotificationTarget.FirstPingText | src/main/kotlin/net/lmoriarty/scanner/notificationTarget.kt:171-175 | the first followed game of a bot not yet watched is pinged under the next id with "@here A game has been hosted!" and its title, and that ping is kept |
| NotificationTarget.UpdateAllPingText | src/main/kotlin/net/lmoriarty/scanner/notificationTarget.kt:171-178 | the kept ping of each newly watched bot is a message of this bot announcing, with the hosted text, one of that bot's games of a followed type |
| NotificationTarget.UpdateAllStoresGames | src/main/kotlin/net/lmoriarty/scanner/notificationTarget.kt:218-222 | each watcher game of a followed type is watched with exactly the watcher's value |
| NotificationTarget.RemoveGameTypes | src/main/kotlin/net/lmoriarty/scanner/notificationTarget.kt:230-240 | corrected: the types are the old set minus the removed ones, and no game is added; the dropped games' pings are forgotten and their messages deleted, and every other ping is kept |
| NotificationTarget.RemoveGameTypesPings | src/main/kotlin/net/lmoriarty/scanner/notificationTarget.kt:230-240 | corrected: a game keeps its ping exactly when its type is not removed, a kept ping is unchanged, and the ping of a game of a removed type is gone from the channel |
| NotificationTarget.RemoveGameTypesClears | src/main/kotlin/net/lmoriarty/scanner/notificationTarget.kt:230-240 | corrected: no watched game has a removed type, and every game of another type is still watched, unchanged |
| NotificationTarget.FirstOfTypes | src/main/kotlin/net/lmoriarty/scanner/notificationTarget.kt:234-236 | the first game in bot-name order with a removed type, or none iff there is no such game |
| NotificationTarget.RemoveGameTypesAsWritten | src/main/kotlin/net/lmoriarty/scanner/notificationTarget.kt:234-238 | as written: the types shrink; with no watched game of a removed type nothing else changes; otherwise exactly the first such game in bot-name order is removed, its ping dropped and its ping message deleted, and every other game stays |
| NotificationTarget.RemoveGameTypesCounterexample | src/main/kotlin/net/lmoriarty/scanner/notificationTarget.kt:230-240 | with two AoC games on bots "a" and "b", the as-written removal drops "a" and leaves "b" watched, and later remove events no longer reach it; the corrected one drops both |
| NotificationTarget.PingsAreTracked | src/main/kotlin/net/lmoriarty/scanner/notificationTarget.kt:260-268 | every kept ping is a tracked message |
| NotificationTarget.IsTrackedMessage | src/main/kotlin/net/lmoriarty/scanner/notificationTarget.kt:260-268 | a message is tracked iff it is the status message or some watched game's ping |
| NotificationTarget.NewPingIsTracked | src/main/kotlin/net/lmoriarty/scanner/notificationTarget.kt:171-175 | the ping just sent for a new game is tracked |
| NotificationTarget.DeleteAll | src/main/kotlin/net/lmoriarty/scanner/notificationTarget.kt:164-166 | exactly the listed messages are deleted, the rest stay in order, and nothing is posted |
| NotificationTarget.StaleIn | src/main/kotlin/net/lmoriarty/scanner/notificationTarget.kt:156-160 | the selection holds exactly the history messages posted by this bot that are not tracked |
| NotificationTarget.ClearUntrackedMessages | src/main/kotlin/net/lmoriarty/scanner/notificationTarget.kt:148-169 | clearing keeps the channel well formed and posts nothing |
| NotificationTarget.ClearUntrackedMessagesKeeps | src/main/kotlin/net/lmoriarty/scanner/notificationTarget.kt:148-169 | a message survives iff it is not one of this bot's untracked messages among the newest 256; tracked messages and other authors' messages stay |
| NotificationTarget.SendInfoMessage | src/main/kotlin/net/lmoriarty/scanner/notificationTarget.kt:62-77 | only lastMessage changes; with no tracked message it posts and tracks; when the tracked message is not the latest it is deleted and a new one is tracked; otherwise it is edited in place and tracking is unchanged |
| NotificationTarget.SendInfoMessageShows | src/main/kotlin/net/lmoriarty/scanner/notificationTarget.kt:62-77 | afterwards the tracked message is the latest in the channel and shows exactly the given content |
| NotificationTarget.InfoContent | src/main/kotlin/net/lmoriarty/scanner/notificationTarget.kt:110-142 | the status content with the game list corrected: none when no type is followed; otherwise the embed (header, game list) or the fallback text (header then the corrected fallback list) |
| NotificationTarget.UpdateInfoMessage | src/main/kotlin/net/lmoriarty/scanner/notificationTarget.kt:135-142 | with no type followed nothing changes (reduce throws and the timer swallows it); otherwise the tracked status message is the newest one and shows exactly `InfoContent` |
| NotificationTarget.InfoContentAsWritten | src/main/kotlin/net/lmoriarty/scanner/notificationTarget.kt:110-142 | the status content as the source builds it: the same embed as the corrected content, and a fallback text whose game list is the as-written one |
| NotificationTarget.InfoContentAsWrittenDiffers | src/main/kotlin/net/lmoriarty/scanner/notificationTarget.kt:131-133 | with one watched game and embeds off, the posted text ends in a bare "\| " and differs from the corrected text, whose last line names the bot |
| NotificationTarget.UpdateInfoMessageAsWritten | src/main/kotlin/net/lmoriarty/scanner/notificationTarget.kt:135-142 | as written, with no type followed nothing changes; otherwise the tracked status message is the newest one and shows exactly `InfoContentAsWritten` |
| NotificationTarget.InfoContentNamesTypes | src/main/kotlin/net/lmoriarty/scanner/notificationTarget.kt:131-133 | the embed description, or the fallback text, names every followed type |
| NotificationTarget.InfoMessageNamesTypes | src/main/kotlin/net/lmoriarty/scanner/notificationTarget.kt:135-142 | after an update the tracked status message names every followed type |
| NotificationTarget.Shutdown | src/main/kotlin/net/lmoriarty/scanner/notificationTarget.kt:250-258 | shutdown forgets the pings and the status message, keeping types and games |
| NotificationTarget.ShutdownClearsOwnMessages | src/main/kotlin/net/lmoriarty/scanner/notificationTarget.kt:250-258 | after shutdown none of this bot's messages among the newest 256 is left, and other authors' messages stay |
| NotificationTarget.Create | src/main/kotlin/net/lmoriarty/scanner/notificationTarget.kt:32-47 | a new target follows the given types, satisfies the invariant, and watches exactly the watcher's bots of those types; after the clearing each of them is pinged under a new id and the ping is kept, and the channel gains exactly those pings |

## Left out

- discordBot.kt, settings.kt and exceptions.kt are not part of this model. They are Discord login and event wiring, JSON persistence and two exception classes. The exceptions appear only as constructors of `Extraction.Exception`.
- Jsoup fetching and column reading (`fetchDocument`, `getRowColumns`) are left out: they are foreign library calls. `Extraction.ExtractRows` takes the fetched table as a `Fetch` value.
- `makeRequest`'s rate-limit retry and Discord errors are left out. Every request is modelled as succeeding at once.
- Chat.Delete: deleting a message that is already gone is a no-op. In Discord it may fail.
- Threads, timers, `synchronized`, `Future.get` timeouts and the executors' queues are not modelled. Operations apply in sequence. The 2-second delay and 7-second timeout of `InfoMessageHolder` are abstract `Complete`/`Cancel` steps.
- The regular expressions, `toLowerCase` and `toUpperCase` are parameters, not modelled string functions.
- `GameType.roles` is left out: it is unused by the modelled code.
- `Watcher.start` (timer) and `getAll` are not modelled as members. `getAll`'s snapshot is a `seq<GameInfo>` parameter of `AddGameTypes` and `Create`, in the map's unspecified order.
- Watcher.Scan always applies every row and then the sweep. In the source, a listener call (`onGameUpdated`, `onGameRemoved`, `onGameHosted`) can throw partway through the row loop or the sweep, and the generic `catch` swallows the exception. The registry and the counter then keep the changes already made, and the rest of the poll is skipped. The model does not cover that partial update, because listener failures are not modelled.
- Watcher.Scan: `idCounter` is an unbounded `nat`. The source's `Long` would wrap after 2^63 games, which is out of reach in practice.
- Watcher.Sweep: the HashMap's iteration order is modelled as an arbitrary order, chosen with `:|`. The ensures state only what holds for every order.
- Strings.Less compares Dafny `char`s, which are Unicode scalar values. Kotlin's `String.compareTo` and `length` work on UTF-16 code units. The two agree on text inside the Basic Multilingual Plane. A character above U+FFFF differs in two ways. First, it counts as one `char` here but as two code units in `bot.length`, so the column padding differs. Second, its surrogate pair (0xD800-0xDBFF) sorts below U+E000-U+FFFF in the source, while its scalar value sorts above them here, so the TreeMap order can differ.
- `GameInfo` is a shared mutable object in the source. The watcher's registry and every target's `watchedGames` hold the same instance, and `scan` updates it in place before firing the update event. The model treats `GameInfo` as a value that each event carries. The two agree once each event has been delivered. They part ways for an entry that a target keeps after the watcher dropped it, such as the one the as-written `removeGameTypes` leaves behind: in the source that entry keeps changing if the bot's game is updated again, while in the model it does not.
- NotificationTarget.Shutdown also calls `executor.shutdown()` in the source, after which further `submit` calls are rejected. The model's `Shutdown` returns a target that still accepts operations, so it does not model that rejection.
- NotificationTarget.InfoContent and NotificationTarget.UpdateInfoMessage use the corrected game list of `Rendering.GameList`, as the rest of the model does. The text the source posts is `InfoContentAsWritten` and `UpdateInfoMessageAsWritten`. The two differ only in the fallback text, as `InfoContentAsWrittenDiffers` shows.
- Rendering.HeaderString lists the types in declaration order. The source iterates a `HashSet`, whose order is unspecified; the contract about the header does not depend on the order.
- The embed's title ("MMH Scanner"), colour, owner footer and field name are left out. They are constants passed to Discord's `EmbedBuilder`. `Chat.Embed` carries only the description and the game list.
- `getMessageHistory(8)` in `sendInfoMessage` only serves to read the latest message, so it is modelled as `Chat.Latest`. The cache clearing before it is left out.
- `InfoMessageHolder.shutdown` only shuts down its executors, so it has no model.
- `NotificationTarget.isEmpty` is the predicate `IsEmpty` and has no contract. The queue round-trip in the source only orders it after earlier actions.
- Chat.Recent keeps only the newest messages. The clearing deletes only among them, as the 256-message fetch does.

## Findings

| source | as written | input that shows it | evidently intended | confidence | as-written member | corrected member |
|---|---|---|---|---|---|---|
| src/main/kotlin/net/lmoriarty/scanner/notificationTarget.kt:98-100 | the if-else on `fallback` takes the whole concatenation as its else branch, so a fallback line is only "\| " | one hosted game with embeds not allowed: the list is "```Currently hosted games:\n\| " and names no game; the status text that `buildInfoString` posts ends the same way (NotificationTarget.InfoContentAsWrittenDiffers) | "\| " + padded bot + " --- (count) title" + newline | not executed | Rendering.GameListAsWritten | Rendering.GameList |
| src/main/kotlin/net/lmoriarty/scanner/notificationTarget.kt:234-238 | removes from the TreeMap while iterating it; the next step of the iterator throws ConcurrentModificationException, which the executor swallows, so at most one game is removed | following only AoC with games on bots "a" and "b", both AoC; removeGameTypes({AOC}) leaves "b" watched, and its later remove event is filtered out | remove every watched game of a removed type | not executed | NotificationTarget.RemoveGameTypesAsWritten | NotificationTarget.RemoveGameTypes |
| src/main/kotlin/net/lmoriarty/scanner/notificationMessagesHolder.kt:33-41 | deletes the ping but keeps the map entry | send, remove, then send again for the same game id: the second send returns false, and the deleted message still counts as tracked | delete the ping and drop the entry | not executed | NotificationMessagesHolder.RemoveNotificationAsWritten | NotificationMessagesHolder.RemoveNotification |

=== FILE: chat.dfy ===
/** The chat channel the bot writes to, reduced to what the dispatcher
    relies on: messages are opaque ids with an author and content, kept in
    posting order (oldest first). The platform client's calls become pure
    functions on this value. */
module Chat {
  import opened Common

  type MessageId = nat
  type UserId = nat

  /** The parts of a rich embed the dispatcher fills in: the description
      (the header line) and the "Game List:" field. */
  datatype Embed = Embed(description: string, gameList: string)

  datatype Message = Message(id: MessageId, author: UserId, text: Option<string>, embed: Option<Embed>)

  /** `nextId` is the id the platform gives the next message sent. */
  datatype Channel = Channel(messages: seq<Message>, nextId: MessageId)

  function Ids(ch: Channel): set<MessageId>
  {
    set i | 0 <= i < |ch.messages| :: ch.messages[i].id
  }

  /** A message is present when it has not been deleted (`!isDeleted`). */
  predicate Present(ch: Channel, id: MessageId)
  {
    id in Ids(ch)
  }

  /** Ids grow in posting order. */
  ghost predicate Increasing(ms: seq<Message>)
  {
    forall i, j :: 0 <= i < j < |ms| ==> ms[i].id < ms[j].id
  }

  /** Ids grow in posting order (so they are distinct) and lie below `nextId`. */
  ghost predicate Valid(ch: Channel)
  {
    && (forall i :: 0 <= i < |ch.messages| ==> ch.messages[i].id < ch.nextId)
    && Increasing(ch.messages)
  }

  /** `channel.sendMessage`: the new message goes to the bottom under a new
      id, and it becomes the latest message. */
  function Send(ch: Channel, author: UserId, text: Option<string>, embed: Option<Embed>): (r: Channel)
    ensures Ids(r) == Ids(ch) + {ch.nextId}
    ensures r.nextId > ch.nextId
    ensures Latest(r) == Some(ch.nextId)
    ensures Valid(ch) ==> Valid(r) && !Present(ch, ch.nextId)
    ensures Valid(ch) ==> Find(r, ch.nextId) == Some(Message(ch.nextId, author, text, embed))
    ensures forall id :: id != ch.nextId ==> Find(r, id) == Find(ch, id)
  {
    var m := Message(ch.nextId, author, text, embed);
    AppendIds(ch, m);
    AppendValid(ch, m);
    FindAppend(ch.messages, m);
    Channel(ch.messages + [m], ch.nextId + 1)
  }

  /** Appending a message adds exactly its id. */
  lemma AppendIds(ch: Channel, m: Message)
    ensures Ids(Channel(ch.messages + [m], m.id + 1)) == Ids(ch) + {m.id}
  {
    var ms := ch.messages + [m];
    assert ms[|ch.messages|] == m;
    assert forall i :: 0 <= i < |ch.messages| ==> ms[i] == ch.messages[i];
  }

  /** Appending a message under `nextId` keeps a valid channel valid, and
      that id was not present before. */
  lemma AppendValid(ch: Channel, m: Message)
    requires m.id == ch.nextId
    ensures Valid(ch) ==> Valid(Channel(ch.messages + [m], m.id + 1)) && !Present(ch, m.id)
  {
    var ms := ch.messages + [m];
    assert forall i :: 0 <= i < |ch.messages| ==> ms[i] == ch.messages[i];
    assert ms[|ch.messages|] == m;
  }

  /** The first message with this id, if any. */
  function Find(ch: Channel, id: MessageId): (r: Option<Message>)
    ensures r.Some? <==> Present(ch, id)
    ensures r.Some? ==> r.value.id == id && r.value in ch.messages
  {
    FindIn(ch.messages, id)
  }

  function FindIn(ms: seq<Message>, id: MessageId): (r: Option<Message>)
    ensures r.Some? <==> exists i :: 0 <= i < |ms| && ms[i].id == id
    ensures r.Some? ==> r.value.id == id && r.value in ms
  {
    if |ms| == 0 then None
    else if ms[0].id == id then Some(ms[0])
    else
      assert forall i :: 1 <= i < |ms| ==> ms[1..][i - 1] == ms[i];
      FindIn(ms[1..], id)
  }

  lemma {:induction false} FindAppend(ms: seq<Message>, m: Message)
    ensures FindIn(ms + [m], m.id) == (if FindIn(ms, m.id).Some? then FindIn(ms, m.id) else Some(m))
    ensures forall id :: id != m.id ==> FindIn(ms + [m], id) == FindIn(ms, id)
    decreases |ms|
  {
    if |ms| > 0 {
      assert (ms + [m])[1..] == ms[1..] + [m];
      FindAppend(ms[1..], m);
    }
  }

  /** `message.delete()`: the message disappears, everything else stays, in
      order. Deleting an absent message changes nothing. */
  function Delete(ch: Channel, id: MessageId): (r: Channel)
    ensures Ids(r) == Ids(ch) - {id}
    ensures r.nextId == ch.nextId
    ensures forall m :: m in r.messages <==> m in ch.messages && m.id != id
    ensures !Present(ch, id) ==> r == ch
    ensures Valid(ch) ==> Valid(r)
  {
    var ms := DeleteIn(ch.messages, id);
    var r := Channel(ms, ch.nextId);
    FilteredIds(ch, ms, id);
    assert Valid(ch) ==> Valid(r) by {
      if Valid(ch) {
        DeleteInIncreasing(ch.messages, id);
        FilteredBelow(ch.messages, ms, id, ch.nextId);
      }
    }
    r
  }

  /** A channel holding exactly the messages of `ch` whose id is not `id`
      has the ids of `ch` without `id`. */
  lemma FilteredIds(ch: Channel, b: seq<Message>, id: MessageId)
    requires forall m :: m in b <==> m in ch.messages && m.id != id
    ensures Ids(Channel(b, ch.nextId)) == Ids(ch) - {id}
  {
    var r := Channel(b, ch.nextId);
    forall x | x in Ids(r) ensures x in Ids(ch) - {id} {
      var i :| 0 <= i < |b| && b[i].id == x;
      assert b[i] in b;
      var j :| 0 <= j < |ch.messages| && ch.messages[j] == b[i];
    }
    forall x | x in Ids(ch) - {id} ensures x in Ids(r) {
      var i :| 0 <= i < |ch.messages| && ch.messages[i].id == x;
      assert ch.messages[i] in ch.messages;
      var j :| 0 <= j < |b| && b[j] == ch.messages[i];
    }
  }

  lemma FilteredBelow(a: seq<Message>, b: seq<Message>, id: MessageId, bound: nat)
    requires forall m :: m in b <==> m in a && m.id != id
    requires forall i :: 0 <= i < |a| ==> a[i].id < bound
    ensures forall i :: 0 <= i < |b| ==> b[i].id < bound
  {
    forall i | 0 <= i < |b| ensures b[i].id < bound {
      assert b[i] in b;
      var j :| 0 <= j < |a| && a[j] == b[i];
    }
  }

  function DeleteIn(ms: seq<Message>, id: MessageId): (r: seq<Message>)
    ensures forall m :: m in r <==> m in ms && m.id != id
    ensures (forall i :: 0 <= i < |ms| ==> ms[i].id != id) ==> r == ms
  {
    if |ms| == 0 then []
    else
      var rest := DeleteIn(ms[1..], id);
      assert forall m :: m in ms <==> m == ms[0] || m in ms[1..];
      assert forall i :: 1 <= i < |ms| ==> ms[1..][i - 1] == ms[i];
      if ms[0].id == id then rest else [ms[0]] + rest
  }

  /** A message below every id of an increasing list may be put in front. */
  lemma ConsIncreasing(m: Message, rest: seq<Message>)
    requires Increasing(rest)
    requires forall x :: x in rest ==> m.id < x.id
    ensures Increasing([m] + rest)
  {
    var r := [m] + rest;
    forall i, j | 0 <= i < j < |r| ensures r[i].id < r[j].id {
      assert r[j] == rest[j - 1];
      if i > 0 {
        assert r[i] == rest[i - 1];
      } else {
        assert rest[j - 1] in rest;
      }
    }
  }

  /** Deleting keeps the ids in increasing order. */
  lemma {:induction false} DeleteInIncreasing(ms: seq<Message>, id: MessageId)
    requires Increasing(ms)
    ensures Increasing(DeleteIn(ms, id))
    decreases |ms|
  {
    if |ms| > 0 {
      var tail := ms[1..];
      assert Increasing(tail) by {
        forall i, j | 0 <= i < j < |tail| ensures tail[i].id < tail[j].id {
          assert tail[i] == ms[i + 1] && tail[j] == ms[j + 1];
        }
      }
      DeleteInIncreasing(tail, id);
      var rest := DeleteIn(tail, id);
      forall x | x in rest ensures ms[0].id < x.id {
        var k :| 0 <= k < |tail| && tail[k] == x;
        assert x == ms[k + 1];
      }
      if ms[0].id != id {
        ConsIncreasing(ms[0], rest);
      }
    }
  }

  /** `message.edit(text, embed)`: the content of a present message is
      replaced; ids, authors and order stay. */
  function Edit(ch: Channel, id: MessageId, text: Option<string>, embed: Option<Embed>): (r: Channel)
    ensures Ids(r) == Ids(ch)
    ensures r.nextId == ch.nextId
    ensures |r.messages| == |ch.messages|
    ensures forall i :: 0 <= i < |r.messages| ==>
      && r.messages[i].id == ch.messages[i].id
      && r.messages[i].author == ch.messages[i].author
      && (r.messages[i].id == id ==> r.messages[i].text == text && r.messages[i].embed == embed)
      && (r.messages[i].id != id ==> r.messages[i] == ch.messages[i])
    ensures Valid(ch) ==> Valid(r)
  {
    var ms := seq(|ch.messages|, i requires 0 <= i < |ch.messages| =>
      if ch.messages[i].id == id then ch.messages[i].(text := text, embed := embed) else ch.messages[i]);
    var r := Channel(ms, ch.nextId);
    assert forall i :: 0 <= i < |ms| ==> ms[i].id == ch.messages[i].id;
    r
  }

  /** `getMessageHistory(n).latestMessage`: the newest message, if any. */
  function Latest(ch: Channel): (r: Option<MessageId>)
    ensures r.Some? <==> |ch.messages| > 0
    ensures r.Some? ==> Present(ch, r.value)
    // the message at the bottom of the channel, which carries the highest id
    ensures r.Some? ==> r.value == ch.messages[|ch.messages| - 1].id
    ensures r.Some? && Valid(ch) ==> forall id :: id in Ids(ch) ==> id <= r.value
  {
    if |ch.messages| == 0 then None else Some(ch.messages[|ch.messages| - 1].id)
  }

  /** `getMessageHistory(n)`: the newest `n` messages. */
  function Recent(ch: Channel, n: nat): (r: seq<Message>)
    ensures |r| == if |ch.messages| < n then |ch.messages| else n
    ensures forall m :: m in r ==> m in ch.messages
    // the newest ones: a suffix of the channel, in posting order
    ensures r == ch.messages[|ch.messages| - |r|..]
  {
    if |ch.messages| <= n then ch.messages else ch.messages[|ch.messages| - n..]
  }
}

=== FILE: classifier.dfy ===
/** Game types and the title classifier (`shouldWatch`). Regex matching and
    lower-casing are left abstract: a `Patterns` value supplies them, so the
    proofs are about the ignore rule and the first-match order, which hold
    for any patterns. */
module GameTypes {
  import opened Common

  /** The game types, in the source's declaration order. */
  datatype GameType =
    | ROTRP | YARP | SOTDRP | AOC | GCG | TL | LOAD | MZI | ROTK
    | SPIDER_INVASION | AZEROTH | FANTASY_LIFE | EAW | RP

  /** `GameType.values()`: every type once, in declaration order. */
  const DeclarationOrder: seq<GameType> :=
    [ROTRP, YARP, SOTDRP, AOC, GCG, TL, LOAD, MZI, ROTK, SPIDER_INVASION, AZEROTH, FANTASY_LIFE, EAW, RP]

  /** A type's position in the declaration (its `ordinal`). */
  function Rank(t: GameType): (r: nat)
    ensures r < |DeclarationOrder| && DeclarationOrder[r] == t
  {
    match t
    case ROTRP => 0
    case YARP => 1
    case SOTDRP => 2
    case AOC => 3
    case GCG => 4
    case TL => 5
    case LOAD => 6
    case MZI => 7
    case ROTK => 8
    case SPIDER_INVASION => 9
    case AZEROTH => 10
    case FANTASY_LIFE => 11
    case EAW => 12
    case RP => 13
  }

  /** `values()` lists every type once. */
  lemma DeclarationOrderDistinct()
    ensures forall i, j :: 0 <= i < j < |DeclarationOrder| ==> DeclarationOrder[i] != DeclarationOrder[j]
    ensures forall t: GameType :: t in DeclarationOrder
  {
    assert forall i :: 0 <= i < |DeclarationOrder| ==> Rank(DeclarationOrder[i]) == i;
    forall t: GameType ensures t in DeclarationOrder {
      assert DeclarationOrder[Rank(t)] == t;
    }
  }

  /** `toString()` of a type: its declared name. */
  function TypeName(t: GameType): string
  {
    match t
    case ROTRP => "ROTRP"
    case YARP => "YARP"
    case SOTDRP => "SOTDRP"
    case AOC => "AOC"
    case GCG => "GCG"
    case TL => "TL"
    case LOAD => "LOAD"
    case MZI => "MZI"
    case ROTK => "ROTK"
    case SPIDER_INVASION => "SPIDER_INVASION"
    case AZEROTH => "AZEROTH"
    case FANTASY_LIFE => "FANTASY_LIFE"
    case EAW => "EAW"
    case RP => "RP"
  }

  /** The text operations the classifier relies on: `toLowerCase`,
      `ignoreRegex.containsMatchIn` and, per type, `regex.containsMatchIn`. */
  datatype Patterns = Patterns(lower: string -> string, ignored: string -> bool, matches: (GameType, string) -> bool)

  /** The first type of `types` whose pattern matches `s`. */
  function FirstMatch(p: Patterns, s: string, types: seq<GameType>): (r: Option<GameType>)
    ensures r.None? <==> forall i :: 0 <= i < |types| ==> !p.matches(types[i], s)
    ensures r.Some? ==>
      exists i :: 0 <= i < |types| && types[i] == r.value && p.matches(types[i], s)
        && forall j :: 0 <= j < i ==> !p.matches(types[j], s)
  {
    if |types| == 0 then None
    else if p.matches(types[0], s) then Some(types[0])
    else
      var r := FirstMatch(p, s, types[1..]);
      assert forall j :: 1 <= j < |types| ==> types[1..][j - 1] == types[j];
      r
  }

  /** The declaration lists each type once: position and rank agree. */
  lemma RankOfDeclared(i: nat)
    requires i < |DeclarationOrder|
    ensures Rank(DeclarationOrder[i]) == i
  {
    if i < 7 {
      assert i == 0 || i == 1 || i == 2 || i == 3 || i == 4 || i == 5 || i == 6;
    } else {
      assert i == 7 || i == 8 || i == 9 || i == 10 || i == 11 || i == 12 || i == 13;
    }
  }

  /** Scanning the declaration for the first match picks the matching type
      of lowest rank. */
  lemma FirstMatchIsLowestRank(p: Patterns, s: string)
    ensures forall t :: FirstMatch(p, s, DeclarationOrder) == Some(t) <==>
      p.matches(t, s) && forall u :: Rank(u) < Rank(t) ==> !p.matches(u, s)
  {
    forall t
      ensures FirstMatch(p, s, DeclarationOrder) == Some(t) <==>
        p.matches(t, s) && forall u :: Rank(u) < Rank(t) ==> !p.matches(u, s)
    {
      if FirstMatch(p, s, DeclarationOrder) == Some(t) {
        FoundIsLowest(p, s, t);
      }
      if p.matches(t, s) && forall u :: Rank(u) < Rank(t) ==> !p.matches(u, s) {
        LowestIsFound(p, s, t);
      }
    }
  }

  lemma FoundIsLowest(p: Patterns, s: string, t: GameType)
    requires FirstMatch(p, s, DeclarationOrder) == Some(t)
    ensures p.matches(t, s) && forall u :: Rank(u) < Rank(t) ==> !p.matches(u, s)
  {
    var d := DeclarationOrder;
    var i :| 0 <= i < |d| && d[i] == t && p.matches(t, s) && forall j :: 0 <= j < i ==> !p.matches(d[j], s);
    RankOfDeclared(i);
    forall u | Rank(u) < Rank(t) ensures !p.matches(u, s) {
      assert d[Rank(u)] == u;
    }
  }

  lemma LowestIsFound(p: Patterns, s: string, t: GameType)
    requires p.matches(t, s) && forall u :: Rank(u) < Rank(t) ==> !p.matches(u, s)
    ensures FirstMatch(p, s, DeclarationOrder) == Some(t)
  {
    var d := DeclarationOrder;
    forall j | 0 <= j < Rank(t) ensures !p.matches(d[j], s) {
      RankOfDeclared(j);
    }
    FirstMatchAt(p, s, d, Rank(t));
  }

  /** `shouldWatch`: the type a game title is watched as, if any. */
  function ShouldWatch(p: Patterns, title: string): (r: Option<GameType>)
    ensures p.ignored(p.lower(title)) ==> r.None?
  {
    var s := p.lower(title);
    if p.ignored(s) then None else FirstMatch(p, s, DeclarationOrder)
  }

  /** The classification rule: the ignore pattern wins over everything;
      otherwise the earliest declared type whose pattern matches the
      lower-cased title is chosen, and there is none when no pattern
      matches. */
  lemma ShouldWatchIsFirstMatch(p: Patterns, title: string)
    ensures forall t :: ShouldWatch(p, title) == Some(t) <==>
      && !p.ignored(p.lower(title))
      && p.matches(t, p.lower(title))
      && forall u :: Rank(u) < Rank(t) ==> !p.matches(u, p.lower(title))
    ensures ShouldWatch(p, title).None? <==>
      p.ignored(p.lower(title)) || forall t :: !p.matches(t, p.lower(title))
  {
    var s := p.lower(title);
    if !p.ignored(s) {
      FirstMatchIsLowestRank(p, s);
      var r := FirstMatch(p, s, DeclarationOrder);
      if r.None? {
        forall t ensures !p.matches(t, s) {
          assert DeclarationOrder[Rank(t)] == t;
        }
      }
    }
  }

  /** Of two matching types the one declared first wins: a title matching
      both AOC and RP is never classified as RP. */
  lemma EarlierTypeWins(p: Patterns, title: string, t: GameType, u: GameType)
    requires !p.ignored(p.lower(title))
    requires Rank(t) < Rank(u)
    requires p.matches(t, p.lower(title)) && p.matches(u, p.lower(title))
    ensures ShouldWatch(p, title) != Some(u)
  {
    ShouldWatchIsFirstMatch(p, title);
  }

  /** The AOC-versus-RP example: when neither of the three types declared
      before AOC matches, a title matching AOC and RP is AOC. */
  lemma AocBeatsRp(p: Patterns, title: string)
    requires !p.ignored(p.lower(title))
    requires p.matches(AOC, p.lower(title)) && p.matches(RP, p.lower(title))
    requires !p.matches(ROTRP, p.lower(title)) && !p.matches(YARP, p.lower(title))
      && !p.matches(SOTDRP, p.lower(title))
    ensures ShouldWatch(p, title) == Some(AOC)
  {
    var s := p.lower(title);
    var d := DeclarationOrder;
    assert d[0] == ROTRP && d[1] == YARP && d[2] == SOTDRP && d[3] == AOC;
    forall j | 0 <= j < 3 ensures !p.matches(d[j], s) {
      assert j == 0 || j == 1 || j == 2;
    }
    FirstMatchAt(p, s, d, 3);
  }

  /** A matching type with no match before it is the first match. */
  lemma {:induction false} FirstMatchAt(p: Patterns, s: string, types: seq<GameType>, i: nat)
    requires i < |types| && p.matches(types[i], s)
    requires forall j :: 0 <= j < i ==> !p.matches(types[j], s)
    ensures FirstMatch(p, s, types) == Some(types[i])
    decreases i
  {
    if i > 0 {
      assert forall j :: 0 <= j < i - 1 ==> types[1..][j] == types[j + 1];
      FirstMatchAt(p, s, types[1..], i - 1);
    }
  }
}

=== FILE: common.dfy ===
/** Failure-compatible wrappers shared by every module: `Option` stands for a
    Kotlin nullable value, `Result` for a computation that may throw. */
module Common {

  /** A Kotlin `T?`: absent (`null`) or present. */
  datatype Option<+T> = None | Some(value: T)

  /** A value, or the exception that was thrown instead of producing it. */
  datatype Result<+T, +E> = Success(value: T) | Failure(error: E)
}

=== FILE: extraction.dfy ===
/** Row extraction from the MakeMeHost game table: each table row is a list
    of column strings, validated and parsed into a `GameRow`. The HTML fetch
    itself is a parameter (`Fetch`); `toUpperCase` is the parameter `upper`. */
module Extraction {
  import opened Common

  datatype Realm = USA | EUROPE

  datatype GameRow = GameRow(botName: string, realm: Realm, currentGame: string, ingameCounter: string)

  /** The exceptions that can leave row extraction: the two application
      exceptions, and the library ones that get wrapped or propagated. */
  datatype Exception =
    | DataExtract(message: string, cause: Option<Exception>)
    | MakeMeHostConnect(message: string, reason: Exception)
    | IllegalArgument      // `Realm.valueOf` of an unknown name
    | IndexOutOfBounds     // list access past the end
    | IO                   // the HTTP fetch failed

  const NotEnoughColumns := "Not enough columns in table!"
  const UnexpectedParsingError := "Unexpected parsing error"
  const FetchFailed := "Failed to fetch data from MMH."

  /** What fetching the table produced: its rows (each a list of column
      texts, header row included), a null document, or an I/O failure. */
  datatype Fetch = Document(rows: seq<seq<string>>) | NullDocument | IOFailure

  function RealmName(realm: Realm): string
  {
    match realm
    case USA => "USA"
    case EUROPE => "EUROPE"
  }

  /** `Realm.valueOf(name)`: the realm whose name is exactly `name`. */
  function RealmValueOf(name: string): (r: Result<Realm, Exception>)
    ensures r.Success? <==> name == "USA" || name == "EUROPE"
    ensures r.Success? ==> RealmName(r.value) == name
    ensures r.Failure? ==> r.error == IllegalArgument
  {
    if name == "USA" then Success(USA)
    else if name == "EUROPE" then Success(EUROPE)
    else Failure(IllegalArgument)
  }

  /** The body of the `try` in `extractRow`: columns 0, 1, 3 and 4 are read
      in that order; column 2 is never looked at. */
  function ParseColumns(columns: seq<string>, upper: string -> string): Result<GameRow, Exception>
  {
    if |columns| < 4 then
      Failure(DataExtract(NotEnoughColumns, None))
    else
      match RealmValueOf(upper(columns[1]))
      case Failure(e) => Failure(e)
      case Success(realm) =>
        if |columns| < 5 then Failure(IndexOutOfBounds)
        else Success(GameRow(columns[0], realm, columns[3], columns[4]))
  }

  /** The `catch` of `extractRow`: a `DataExtract` passes through unchanged,
      anything else is wrapped with the generic message and kept as cause. */
  function Rethrow(e: Exception): (r: Exception)
    ensures r.DataExtract?
    ensures e.DataExtract? ==> r == e
    ensures !e.DataExtract? ==> r.message == UnexpectedParsingError && r.cause == Some(e)
  {
    if e.DataExtract? then e else DataExtract(UnexpectedParsingError, Some(e))
  }

  /** `extractRow`: parse one row's columns. */
  function ExtractRow(columns: seq<string>, upper: string -> string): (r: Result<GameRow, Exception>)
    // fewer than four columns: the explicit check
    ensures |columns| < 4 ==> r == Failure(DataExtract(NotEnoughColumns, None))
    // success needs a fifth column (index 4) and a known realm
    ensures r.Success? <==> |columns| >= 5 && (upper(columns[1]) == "USA" || upper(columns[1]) == "EUROPE")
    ensures r.Success? ==>
      && r.value.botName == columns[0]
      && RealmName(r.value.realm) == upper(columns[1])
      && r.value.currentGame == columns[3]
      && r.value.ingameCounter == columns[4]
    // every failure is a DataExtract; past the column check it is the wrapped kind
    ensures r.Failure? ==> r.error.DataExtract?
    ensures r.Failure? && |columns| >= 4 ==>
      r.error.message == UnexpectedParsingError && r.error.cause.Some?
  {
    match ParseColumns(columns, upper)
    case Success(row) => Success(row)
    case Failure(e) => Failure(Rethrow(e))
  }

  /** A table row that `ExtractRow` reads back as `row`; `extra` fills the
      ignored third column. */
  function RowColumns(row: GameRow, extra: string): (columns: seq<string>)
    ensures |columns| == 5
  {
    [row.botName, RealmName(row.realm), extra, row.currentGame, row.ingameCounter]
  }

  /** Round trip: rendering a row into columns and extracting it gives the
      row back, whatever the third column holds, provided upper-casing leaves
      a realm name unchanged. */
  lemma ExtractRowRoundTrip(row: GameRow, extra: string, upper: string -> string)
    requires upper(RealmName(row.realm)) == RealmName(row.realm)
    ensures ExtractRow(RowColumns(row, extra), upper) == Success(row)
  {
  }

  /** Extract every row in order; the first failing row's exception aborts. */
  function ExtractAll(rows: seq<seq<string>>, upper: string -> string): (r: Result<seq<GameRow>, Exception>)
    ensures r.Success? <==> forall i :: 0 <= i < |rows| ==> ExtractRow(rows[i], upper).Success?
    ensures r.Success? ==>
      && |r.value| == |rows|
      && forall i :: 0 <= i < |rows| ==> ExtractRow(rows[i], upper) == Success(r.value[i])
    ensures r.Failure? ==>
      exists i :: 0 <= i < |rows| && ExtractRow(rows[i], upper) == Failure(r.error)
        && forall j :: 0 <= j < i ==> ExtractRow(rows[j], upper).Success?
  {
    if |rows| == 0 then Success([])
    else
      match ExtractRow(rows[0], upper)
      case Failure(e) => Failure(e)
      case Success(row) =>
        match ExtractAll(rows[1..], upper)
        case Failure(e) =>
          assert forall j :: 1 <= j < |rows| ==> rows[1..][j - 1] == rows[j];
          Failure(e)
        case Success(tail) =>
          assert forall j :: 1 <= j < |rows| ==> rows[1..][j - 1] == rows[j];
          Success([row] + tail)
  }

  /** `extractRows`: fetch the table, drop the header row, extract the rest.
      A null document gives `None`; an I/O failure becomes a
      `MakeMeHostConnect`; an empty table makes dropping the header throw. */
  function ExtractRows(fetch: Fetch, upper: string -> string): (r: Result<Option<seq<GameRow>>, Exception>)
    ensures fetch.IOFailure? ==> r == Failure(MakeMeHostConnect(FetchFailed, IO))
    ensures fetch.NullDocument? ==> r == Success(None)
    ensures fetch.Document? && |fetch.rows| == 0 ==> r == Failure(IndexOutOfBounds)
    ensures fetch.Document? && |fetch.rows| > 0 ==>
      (r.Success? <==> forall i :: 1 <= i < |fetch.rows| ==> ExtractRow(fetch.rows[i], upper).Success?)
    ensures r.Success? && r.value.Some? ==>
      && fetch.Document?
      && |r.value.value| == |fetch.rows| - 1
      && forall i :: 1 <= i < |fetch.rows| ==> ExtractRow(fetch.rows[i], upper) == Success(r.value.value[i - 1])
  {
    match fetch
    case IOFailure => Failure(MakeMeHostConnect(FetchFailed, IO))
    case NullDocument => Success(None)
    case Document(rows) =>
      if |rows| == 0 then Failure(IndexOutOfBounds)
      else
        assert forall i :: 1 <= i < |rows| ==> rows[1..][i - 1] == rows[i];
        match ExtractAll(rows[1..], upper)
        case Failure(e) => Failure(e)
        case Success(gameRows) => Success(Some(gameRows))
  }
}

=== FILE: info_holder.dfy ===
/** The holder of a channel's single status ("info") message: what it
    should say, which message currently says it, and the debounced renewal
    that moves it to the bottom of the channel. The two-second delay and the
    seven-second timeout are abstract steps: a scheduled repost either
    `Complete`s or is `Cancel`led. */
module InfoMessageHolder {
  import opened Common
  import opened Chat

  /** `pending` counts scheduled reposts that have neither run nor been
      cancelled. */
  datatype Holder = Holder(
    requiresUpdate: bool,
    infoMessage: Option<MessageId>,
    containedString: Option<string>,
    containedEmbed: Option<Embed>,
    pending: nat)

  datatype Step = Step(holder: Holder, channel: Channel)

  function Initial(): (h: Holder)
    ensures Valid(h) && h.infoMessage.None? && !h.requiresUpdate
  {
    Holder(false, None, None, None, 0)
  }

  /** At most one repost is scheduled, and only while `requiresUpdate` is set. */
  ghost predicate Valid(h: Holder)
  {
    h.pending <= 1 && (h.pending == 1 ==> h.requiresUpdate)
  }

  /** The tracked message was handed out by the channel. */
  ghost predicate Consistent(h: Holder, ch: Channel)
  {
    Chat.Valid(ch) && (h.infoMessage.Some? ==> h.infoMessage.value < ch.nextId)
  }

  /** Message `id` is in the channel and shows exactly this content. */
  ghost predicate Shows(ch: Channel, id: MessageId, text: Option<string>, embed: Option<Embed>)
  {
    Find(ch, id).Some? && Find(ch, id).value.text == text && Find(ch, id).value.embed == embed
  }

  /** `postInfoMessage`: delete the tracked message if any, then send the
      contained content as a new message and track that one. */
  function PostInfo(h: Holder, ch: Channel, self: UserId): (r: Step)
    requires Consistent(h, ch)
    ensures r.holder == h.(infoMessage := Some(ch.nextId))
    ensures Consistent(r.holder, r.channel)
    ensures Latest(r.channel) == Some(ch.nextId)
    ensures Shows(r.channel, ch.nextId, h.containedString, h.containedEmbed)
    ensures h.infoMessage.Some? ==> !Present(r.channel, h.infoMessage.value)
    ensures Ids(r.channel) ==
      (if h.infoMessage.Some? then Ids(ch) - {h.infoMessage.value} else Ids(ch)) + {ch.nextId}
  {
    var ch1 := if h.infoMessage.Some? then Delete(ch, h.infoMessage.value) else ch;
    Step(h.(infoMessage := Some(ch1.nextId)), Send(ch1, self, h.containedString, h.containedEmbed))
  }

  /** `editInfoMessage`: edit the tracked message in place while it still
      exists; otherwise post a new one. */
  function EditInfo(h: Holder, ch: Channel, self: UserId): (r: Step)
    requires Consistent(h, ch)
    ensures Consistent(r.holder, r.channel)
    ensures r.holder.infoMessage.Some?
    ensures Shows(r.channel, r.holder.infoMessage.value, h.containedString, h.containedEmbed)
    // a live tracked message is edited and stays tracked; nothing else changes
    ensures h.infoMessage.Some? && Present(ch, h.infoMessage.value) ==>
      r.holder == h && Ids(r.channel) == Ids(ch)
    // a missing or deleted one is replaced by a new message at the bottom
    ensures !(h.infoMessage.Some? && Present(ch, h.infoMessage.value)) ==>
      r.holder == h.(infoMessage := Some(ch.nextId)) && Latest(r.channel) == Some(ch.nextId)
  {
    if h.infoMessage.Some? && Present(ch, h.infoMessage.value) then
      var m := h.infoMessage.value;
      var ch' := Edit(ch, m, h.containedString, h.containedEmbed);
      assert Find(ch', m).Some?;
      var i :| 0 <= i < |ch'.messages| && ch'.messages[i] == Find(ch', m).value;
      Step(h, ch')
    else
      PostInfo(h, ch, self)
  }

  /** `update(string, embed)`: store the new content, then render it. */
  function Update(h: Holder, ch: Channel, self: UserId, text: Option<string>, embed: Option<Embed>): (r: Step)
    requires Consistent(h, ch)
    ensures r.holder.containedString == text && r.holder.containedEmbed == embed
    ensures r.holder.requiresUpdate == h.requiresUpdate && r.holder.pending == h.pending
    ensures Consistent(r.holder, r.channel)
    // the tracked message shows exactly the content just given
    ensures r.holder.infoMessage.Some? && Shows(r.channel, r.holder.infoMessage.value, text, embed)
    ensures h.infoMessage.Some? && Present(ch, h.infoMessage.value) ==>
      r.holder.infoMessage == h.infoMessage
  {
    EditInfo(h.(containedString := text, containedEmbed := embed), ch, self)
  }

  /** Only the latest content is rendered: after two updates the tracked
      message shows the second content. */
  lemma LatestUpdateWins(h: Holder, ch: Channel, self: UserId,
                         t1: Option<string>, e1: Option<Embed>, t2: Option<string>, e2: Option<Embed>)
    requires Consistent(h, ch)
    ensures var s1 := Update(h, ch, self, t1, e1);
      var s2 := Update(s1.holder, s1.channel, self, t2, e2);
      Shows(s2.channel, s2.holder.infoMessage.value, t2, e2)
  {
  }

  /** `renew`: schedule a repost unless one is already due. */
  function Renew(h: Holder): (r: Holder)
    ensures r.requiresUpdate
    ensures h.requiresUpdate ==> r == h
    ensures !h.requiresUpdate ==> r == h.(requiresUpdate := true, pending := h.pending + 1)
    ensures Valid(h) ==> Valid(r)
  {
    if h.requiresUpdate then h else h.(requiresUpdate := true, pending := h.pending + 1)
  }

  /** `n` calls of `renew` in a row. */
  function RenewTimes(h: Holder, n: nat): Holder
  {
    if n == 0 then h else Renew(RenewTimes(h, n - 1))
  }

  /** A burst of renewals schedules one repost, not one per call. */
  lemma {:induction false} RenewBurst(h: Holder, n: nat)
    requires n >= 1
    ensures RenewTimes(h, n) == Renew(h)
    ensures RenewTimes(h, n).pending <= h.pending + 1
  {
    if n > 1 {
      RenewBurst(h, n - 1);
    }
  }

  /** The scheduled repost runs: post anew, then clear `requiresUpdate`.
      Without a scheduled repost there is nothing to run. */
  function Complete(h: Holder, ch: Channel, self: UserId): (r: Step)
    requires Consistent(h, ch)
    ensures Consistent(r.holder, r.channel)
    ensures h.pending == 0 ==> r == Step(h, ch)
    ensures h.pending > 0 ==>
      && !r.holder.requiresUpdate
      && r.holder.pending == h.pending - 1
      && r.holder.infoMessage == Some(ch.nextId)
      && Latest(r.channel) == Some(ch.nextId)
      && Shows(r.channel, ch.nextId, h.containedString, h.containedEmbed)
    ensures Valid(h) ==> Valid(r.holder)
  {
    if h.pending == 0 then Step(h, ch)
    else
      var s := PostInfo(h, ch, self);
      Step(s.holder.(requiresUpdate := false, pending := h.pending - 1), s.channel)
  }

  /** The wait for the repost timed out and it was cancelled: the repost is
      dropped but `requiresUpdate` stays set. */
  function Cancel(h: Holder): (r: Holder)
    ensures r.requiresUpdate == h.requiresUpdate && r.infoMessage == h.infoMessage
    ensures h.pending > 0 ==> r.pending == h.pending - 1
    ensures h.pending == 0 ==> r == h
    ensures Valid(h) ==> Valid(r)
  {
    if h.pending == 0 then h else h.(pending := h.pending - 1)
  }

  /** Once a scheduled repost has been cancelled, no number of further
      `renew` calls schedules another. */
  lemma {:induction false} CancelledRenewStaysOff(h: Holder, n: nat)
    requires Valid(h) && h.pending == 1
    ensures RenewTimes(Cancel(h), n).pending == 0
    ensures RenewTimes(Cancel(h), n).requiresUpdate
  {
    if n > 0 {
      CancelledRenewStaysOff(h, n - 1);
    }
  }

  /** `isMessageTracked`. */
  function IsMessageTracked(h: Holder, m: MessageId): (r: bool)
    ensures r <==> h.infoMessage.Some? && h.infoMessage.value == m
  {
    h.infoMessage == Some(m)
  }

  /** After a repost the old message is no longer tracked and the new one is. */
  lemma PostRetargetsTracking(h: Holder, ch: Channel, self: UserId, m: MessageId)
    requires Consistent(h, ch)
    ensures IsMessageTracked(PostInfo(h, ch, self).holder, m) <==> m == ch.nextId
  {
  }
}

=== FILE: notification_holder.dfy ===
/** The holder of a channel's ping messages ("A game has been hosted!"),
    at most one per game id. */
module NotificationMessagesHolder {
  import opened Common
  import opened Chat
  import opened Watcher

  datatype Holder = Holder(notificationMessages: map<nat, MessageId>)

  datatype Sent = Sent(holder: Holder, channel: Channel, sent: bool)

  datatype Step = Step(holder: Holder, channel: Channel)

  function NotificationText(mention: string, info: GameInfo): string
  {
    mention + " A game has been hosted! `" + info.name + "`"
  }

  /** `sendNotification`: ping once per game id. Answers whether a message
      was sent. */
  function SendNotification(h: Holder, ch: Channel, self: UserId, info: GameInfo, mention: string): (r: Sent)
    ensures r.sent <==> info.id !in h.notificationMessages
    ensures r.sent ==>
      && r.holder.notificationMessages == h.notificationMessages[info.id := ch.nextId]
      && r.channel == Send(ch, self, Some(NotificationText(mention, info)), None)
    ensures !r.sent ==> r.holder == h && r.channel == ch
    ensures info.id in r.holder.notificationMessages
  {
    if info.id !in h.notificationMessages then
      Sent(Holder(h.notificationMessages[info.id := ch.nextId]),
           Send(ch, self, Some(NotificationText(mention, info)), None), true)
    else
      Sent(h, ch, false)
  }

  /** A second notification for the same game sends nothing: one message
      per game id however often it is announced. */
  lemma SendTwiceSendsOnce(h: Holder, ch: Channel, self: UserId, info: GameInfo, m1: string, m2: string)
    ensures var s1 := SendNotification(h, ch, self, info, m1);
      var s2 := SendNotification(s1.holder, s1.channel, self, info, m2);
      !s2.sent && s2.holder == s1.holder && s2.channel == s1.channel
  {
  }

  /** `removeNotification` as written: the ping is deleted but its map entry
      is kept, so the game id stays tracked. */
  function RemoveNotificationAsWritten(h: Holder, ch: Channel, info: GameInfo): (r: Step)
    ensures r.holder == h
    ensures info.id in h.notificationMessages ==>
      r.channel == Delete(ch, h.notificationMessages[info.id])
    ensures info.id !in h.notificationMessages ==> r.channel == ch
  {
    if info.id in h.notificationMessages then
      Step(h, Delete(ch, h.notificationMessages[info.id]))
    else
      Step(h, ch)
  }

  /** The consequence of the kept entry: once a game's ping was removed, the
      same game can never be pinged again, and the deleted message still
      counts as tracked. */
  lemma RemovedPingBlocksResend(h: Holder, ch: Channel, self: UserId, info: GameInfo, mention: string)
    requires info.id in h.notificationMessages
    ensures var s := RemoveNotificationAsWritten(h, ch, info);
      && !SendNotification(s.holder, s.channel, self, info, mention).sent
      && IsMessageTracked(s.holder, h.notificationMessages[info.id])
      && !Present(s.channel, h.notificationMessages[info.id])
  {
  }

  /** `removeNotification` as evidently intended: delete the ping and stop
      tracking it. */
  function RemoveNotification(h: Holder, ch: Channel, info: GameInfo): (r: Step)
    ensures info.id !in r.holder.notificationMessages
    ensures r.holder.notificationMessages == h.notificationMessages - {info.id}
    ensures info.id in h.notificationMessages ==>
      r.channel == Delete(ch, h.notificationMessages[info.id])
    ensures info.id !in h.notificationMessages ==> r == Step(h, ch)
  {
    if info.id in h.notificationMessages then
      Step(Holder(h.notificationMessages - {info.id}), Delete(ch, h.notificationMessages[info.id]))
    else
      Step(h, ch)
  }

  /** With the entry dropped, a removed game can be announced again. */
  lemma RemoveThenSendPingsAgain(h: Holder, ch: Channel, self: UserId, info: GameInfo, mention: string)
    ensures var s := RemoveNotification(h, ch, info);
      SendNotification(s.holder, s.channel, self, info, mention).sent
  {
  }

  /** `isMessageTracked`: the message is one of the held pings. */
  function IsMessageTracked(h: Holder, m: MessageId): (r: bool)
    ensures r <==> exists id :: id in h.notificationMessages && h.notificationMessages[id] == m
  {
    m in h.notificationMessages.Values
  }

  /** `shutdown`: forget every ping. */
  function Shutdown(h: Holder): (r: Holder)
    ensures forall m :: !IsMessageTracked(r, m)
    ensures forall id :: id !in r.notificationMessages
  {
    Holder(map[])
  }

  /** A freshly sent ping is tracked, under its game id. */
  lemma SentPingIsTracked(h: Holder, ch: Channel, self: UserId, info: GameInfo, mention: string)
    requires info.id !in h.notificationMessages
    ensures IsMessageTracked(SendNotification(h, ch, self, info, mention).holder, ch.nextId)
  {
    var r := SendNotification(h, ch, self, info, mention);
    assert r.holder.notificationMessages[info.id] == ch.nextId;
  }
}

=== FILE: notification_target.dfy ===
/** One Discord channel that follows some game types: it pings when a game
    of a followed type is hosted, keeps the pings of live games, keeps one
    status message up to date, and clears away its own stale messages. */
module NotificationTarget {
  import opened Common
  import opened Strings
  import opened TreeMap
  import opened Chat
  import opened GameTypes
  import opened Watcher
  import opened Rendering

  /** How many of the newest messages are inspected when clearing. */
  const FetchedMessageCount := 256

  datatype Target = Target(
    types: set<GameType>,
    lastMessage: Option<MessageId>,
    notificationMessages: map<string, MessageId>,
    watchedGames: seq<Entry<GameInfo>>)

  datatype Step = Step(target: Target, channel: Channel)

  /** The watched games are ordered by bot name and filed under their own
      bot name, and a ping is kept only for a watched game. */
  ghost predicate Valid(t: Target)
  {
    && Sorted(t.watchedGames)
    && (forall k :: k in Keys(t.watchedGames) ==> Get(t.watchedGames, k).value.botName == k)
    && t.notificationMessages.Keys <= Keys(t.watchedGames)
  }

  function Empty(types: set<GameType>): (t: Target)
    ensures Valid(t) && t.types == types && t.lastMessage == None
    ensures t.notificationMessages == map[] && t.watchedGames == []
  {
    Target(types, None, map[], [])
  }

  function PingText(info: GameInfo): string
  {
    "@here A game has been hosted! `" + info.name + "`"
  }

  /** `updateGame`: a game new to this channel is pinged, then the game is
      stored under its bot name. */
  function UpdateGame(t: Target, ch: Channel, self: UserId, info: GameInfo): (r: Step)
    requires Sorted(t.watchedGames)
    ensures Sorted(r.target.watchedGames)
    ensures Keys(r.target.watchedGames) == Keys(t.watchedGames) + {info.botName}
    ensures Get(r.target.watchedGames, info.botName) == Some(info)
    ensures forall k :: k != info.botName ==> Get(r.target.watchedGames, k) == Get(t.watchedGames, k)
    ensures info.botName !in Keys(t.watchedGames) ==>
      && r.channel == Send(ch, self, Some(PingText(info)), None)
      && r.target.notificationMessages == t.notificationMessages[info.botName := ch.nextId]
    ensures info.botName in Keys(t.watchedGames) ==>
      r.channel == ch && r.target.notificationMessages == t.notificationMessages
    ensures r.target.types == t.types && r.target.lastMessage == t.lastMessage
  {
    var watched := Put(t.watchedGames, info.botName, info);
    if info.botName !in Keys(t.watchedGames) then
      Step(t.(notificationMessages := t.notificationMessages[info.botName := ch.nextId],
              watchedGames := watched),
           Send(ch, self, Some(PingText(info)), None))
    else
      Step(t.(watchedGames := watched), ch)
  }

  /** `removeGame`: the game is dropped, its ping deleted and forgotten. */
  function RemoveGame(t: Target, ch: Channel, info: GameInfo): (r: Step)
    requires Sorted(t.watchedGames)
    ensures Sorted(r.target.watchedGames)
    ensures Keys(r.target.watchedGames) == Keys(t.watchedGames) - {info.botName}
    ensures forall k :: k != info.botName ==> Get(r.target.watchedGames, k) == Get(t.watchedGames, k)
    ensures r.target.notificationMessages == t.notificationMessages - {info.botName}
    ensures info.botName in t.notificationMessages ==>
      r.channel == Delete(ch, t.notificationMessages[info.botName])
    ensures info.botName !in t.notificationMessages ==> r.channel == ch
    ensures r.target.types == t.types && r.target.lastMessage == t.lastMessage
  {
    var ch' := if info.botName in t.notificationMessages
               then Delete(ch, t.notificationMessages[info.botName]) else ch;
    Step(t.(watchedGames := Remove(t.watchedGames, info.botName),
            notificationMessages := t.notificationMessages - {info.botName}), ch')
  }

  lemma UpdateGameValid(t: Target, ch: Channel, self: UserId, info: GameInfo)
    requires Valid(t)
    ensures Valid(UpdateGame(t, ch, self, info).target)
  {
  }

  lemma RemoveGameValid(t: Target, ch: Channel, info: GameInfo)
    requires Valid(t)
    ensures Valid(RemoveGame(t, ch, info).target)
  {
  }

  /** `processGameUpdate`: only games of a followed type are taken. */
  function ProcessGameUpdate(t: Target, ch: Channel, self: UserId, info: GameInfo): (r: Step)
    requires Sorted(t.watchedGames)
    ensures info.gameType !in t.types ==> r == Step(t, ch)
    ensures info.gameType in t.types ==> r == UpdateGame(t, ch, self, info)
  {
    if info.gameType in t.types then UpdateGame(t, ch, self, info) else Step(t, ch)
  }

  /** `processGameRemove`: only games of a followed type are dropped. */
  function ProcessGameRemove(t: Target, ch: Channel, info: GameInfo): (r: Step)
    requires Sorted(t.watchedGames)
    ensures info.gameType !in t.types ==> r == Step(t, ch)
    ensures info.gameType in t.types ==> r == RemoveGame(t, ch, info)
  {
    if info.gameType in t.types then RemoveGame(t, ch, info) else Step(t, ch)
  }

  /** A game is pinged once however often it is updated: a second update of
      the same bot sends nothing and keeps the first ping. */
  lemma UpdateTwicePingsOnce(t: Target, ch: Channel, self: UserId, a: GameInfo, b: GameInfo)
    requires Valid(t) && a.botName == b.botName && a.gameType in t.types && b.gameType in t.types
    ensures var s1 := ProcessGameUpdate(t, ch, self, a);
      var s2 := ProcessGameUpdate(s1.target, s1.channel, self, b);
      && s2.channel == s1.channel
      && s2.target.notificationMessages == s1.target.notificationMessages
      && Get(s2.target.watchedGames, b.botName) == Some(b)
  {
  }

  /** After a remove, the next update of that bot pings again. */
  lemma RemoveThenUpdatePingsAgain(t: Target, ch: Channel, self: UserId, info: GameInfo)
    requires Valid(t) && info.gameType in t.types
    ensures var s1 := ProcessGameRemove(t, ch, info);
      var s2 := ProcessGameUpdate(s1.target, s1.channel, self, info);
      && s2.channel == Send(s1.channel, self, Some(PingText(info)), None)
      && s2.target.notificationMessages[info.botName] == s1.channel.nextId
  {
  }

  /** The bot names of the games in `games` whose type is in `types`. */
  function MatchingBots(games: seq<GameInfo>, types: set<GameType>): set<string>
  {
    if |games| == 0 then {}
    else (if games[0].gameType in types then {games[0].botName} else {}) + MatchingBots(games[1..], types)
  }

  lemma {:induction false} MatchingBotsMembers(games: seq<GameInfo>, types: set<GameType>, b: string)
    ensures b in MatchingBots(games, types) <==>
      exists i :: 0 <= i < |games| && games[i].gameType in types && games[i].botName == b
    decreases |games|
  {
    if |games| > 0 {
      MatchingBotsMembers(games[1..], types, b);
      if exists i :: 1 <= i < |games| && games[i].gameType in types && games[i].botName == b {
        var i :| 1 <= i < |games| && games[i].gameType in types && games[i].botName == b;
        assert games[1..][i - 1] == games[i];
      }
      if exists i :: 0 <= i < |games[1..]| && games[1..][i].gameType in types && games[1..][i].botName == b {
        var i :| 0 <= i < |games[1..]| && games[1..][i].gameType in types && games[1..][i].botName == b;
        assert games[i + 1] == games[1..][i];
      }
    }
  }

  /** The message ids of the pings kept for `bots`. */
  function PingIds(pings: map<string, MessageId>, bots: set<string>): set<MessageId>
  {
    set b | b in bots && b in pings :: pings[b]
  }

  /** Going from the pings `pings` and the channel `ch` to the step `r`,
      each bot of `added` got a ping under a new id, which is kept; every
      other ping stays as it was; and the channel gained exactly the new
      pings' ids. */
  ghost predicate PingsAdded(pings: map<string, MessageId>, ch: Channel, r: Step, added: set<string>)
  {
    && r.target.notificationMessages.Keys == pings.Keys + added
    && (forall b :: b in pings && b !in added ==> r.target.notificationMessages[b] == pings[b])
    && (forall b :: b in added ==> ch.nextId <= r.target.notificationMessages[b] < r.channel.nextId)
    && Ids(r.channel) == Ids(ch) + PingIds(r.target.notificationMessages, added)
    && ch.nextId <= r.channel.nextId
  }

  lemma PingIdsAdd(pings: map<string, MessageId>, bots: set<string>, b: string)
    requires b in pings
    ensures PingIds(pings, bots + {b}) == PingIds(pings, bots) + {pings[b]}
  {
  }

  /** Every game of `games` offered to `ProcessGameUpdate` in turn. Each
      bot newly watched is pinged once, under a new id, and that ping is
      kept; the pings already kept stay as they were, and nothing else is
      sent. */
  function UpdateAll(t: Target, ch: Channel, self: UserId, games: seq<GameInfo>): (r: Step)
    requires Sorted(t.watchedGames)
    ensures Sorted(r.target.watchedGames)
    ensures Keys(r.target.watchedGames) == Keys(t.watchedGames) + MatchingBots(games, t.types)
    ensures forall k :: k !in MatchingBots(games, t.types) ==>
      Get(r.target.watchedGames, k) == Get(t.watchedGames, k)
    ensures r.target.types == t.types && r.target.lastMessage == t.lastMessage
    ensures Valid(t) ==> Valid(r.target)
    ensures PingsAdded(t.notificationMessages, ch, r, MatchingBots(games, t.types) - Keys(t.watchedGames))
    decreases |games|
  {
    if |games| == 0 then Step(t, ch)
    else
      var s := ProcessGameUpdate(t, ch, self, games[0]);
      var r := UpdateAll(s.target, s.channel, self, games[1..]);
      UpdateAllGamesStep(t, ch, self, games, s, r);
      UpdateAllPingStep(t, ch, self, games, s, r);
      r
  }

  /** The step of `UpdateAll`'s clauses on the watched games from the rest
      of the games to all of them. */
  lemma {:induction false} UpdateAllGamesStep(t: Target, ch: Channel, self: UserId, games: seq<GameInfo>, s: Step, r: Step)
    requires Sorted(t.watchedGames) && |games| > 0
    requires s == ProcessGameUpdate(t, ch, self, games[0])
    requires Keys(r.target.watchedGames) == Keys(s.target.watchedGames) + MatchingBots(games[1..], t.types)
    requires forall k :: k !in MatchingBots(games[1..], t.types) ==>
      Get(r.target.watchedGames, k) == Get(s.target.watchedGames, k)
    requires Valid(s.target) ==> Valid(r.target)
    ensures Keys(r.target.watchedGames) == Keys(t.watchedGames) + MatchingBots(games, t.types)
    ensures forall k :: k !in MatchingBots(games, t.types) ==>
      Get(r.target.watchedGames, k) == Get(t.watchedGames, k)
    ensures Valid(t) ==> Valid(r.target)
  {
    if Valid(t) && games[0].gameType in t.types { UpdateGameValid(t, ch, self, games[0]); }
  }

  /** The step of `UpdateAll`'s ping clauses from the rest of the games to
      all of them. */
  lemma {:induction false} UpdateAllPingStep(t: Target, ch: Channel, self: UserId, games: seq<GameInfo>, s: Step, r: Step)
    requires Sorted(t.watchedGames) && |games| > 0
    requires s == ProcessGameUpdate(t, ch, self, games[0])
    requires PingsAdded(s.target.notificationMessages, s.channel, r, MatchingBots(games[1..], s.target.types) - Keys(s.target.watchedGames))
    ensures PingsAdded(t.notificationMessages, ch, r, MatchingBots(games, t.types) - Keys(t.watchedGames))
  {
    var g := games[0];
    if g.gameType in t.types && g.botName !in Keys(t.watchedGames) {
      NewPingStep(t, ch, self, g, s, r, MatchingBots(games[1..], t.types));
    } else {
      assert s.target.notificationMessages == t.notificationMessages && s.channel == ch;
      assert MatchingBots(games, t.types) - Keys(t.watchedGames)
        == MatchingBots(games[1..], t.types) - Keys(s.target.watchedGames);
    }
  }

  /** A first game of a bot not yet watched adds its ping to those the rest
      of the games add. */
  lemma NewPingStep(t: Target, ch: Channel, self: UserId, g: GameInfo, s: Step, r: Step, later: set<string>)
    requires Sorted(t.watchedGames) && g.gameType in t.types && g.botName !in Keys(t.watchedGames)
    requires s == ProcessGameUpdate(t, ch, self, g)
    requires PingsAdded(s.target.notificationMessages, s.channel, r, later - Keys(s.target.watchedGames))
    ensures PingsAdded(t.notificationMessages, ch, r, ({g.botName} + later) - Keys(t.watchedGames))
  {
    var rest := later - Keys(s.target.watchedGames);
    var nm := r.target.notificationMessages;
    assert ({g.botName} + later) - Keys(t.watchedGames) == rest + {g.botName};
    assert nm[g.botName] == ch.nextId;
    PingIdsAdd(nm, rest, g.botName);
  }


  /** Every game of `games` whose type is in `filter` handed to `RemoveGame`
      in turn. */
  function RemoveAll(t: Target, ch: Channel, games: seq<GameInfo>, filter: set<GameType>): (r: Step)
    requires Sorted(t.watchedGames)
    ensures Sorted(r.target.watchedGames)
    ensures Keys(r.target.watchedGames) == Keys(t.watchedGames) - MatchingBots(games, filter)
    ensures forall k :: k !in MatchingBots(games, filter) ==>
      Get(r.target.watchedGames, k) == Get(t.watchedGames, k)
    ensures r.target.types == t.types && r.target.lastMessage == t.lastMessage
    ensures Valid(t) ==> Valid(r.target)
    ensures r.target.notificationMessages == t.notificationMessages - MatchingBots(games, filter)
    ensures Ids(r.channel) == Ids(ch) - PingIds(t.notificationMessages, MatchingBots(games, filter))
    decreases |games|
  {
    if |games| == 0 then Step(t, ch)
    else
      var s := if games[0].gameType in filter then RemoveGame(t, ch, games[0]) else Step(t, ch);
      assert Valid(t) ==> Valid(s.target) by {
        if Valid(t) && games[0].gameType in filter { RemoveGameValid(t, ch, games[0]); }
      }
      var r := RemoveAll(s.target, s.channel, games[1..], filter);
      RemoveAllPingStep(t, ch, games, filter, s, r);
      r
  }

  /** The step of `RemoveAll`'s ping clauses from the rest of the games to
      all of them. */
  lemma {:induction false} RemoveAllPingStep(t: Target, ch: Channel, games: seq<GameInfo>, filter: set<GameType>, s: Step, r: Step)
    requires Sorted(t.watchedGames) && |games| > 0
    requires s == if games[0].gameType in filter then RemoveGame(t, ch, games[0]) else Step(t, ch)
    requires r.target.notificationMessages == s.target.notificationMessages - MatchingBots(games[1..], filter)
    requires Ids(r.channel) == Ids(s.channel) - PingIds(s.target.notificationMessages, MatchingBots(games[1..], filter))
    ensures r.target.notificationMessages == t.notificationMessages - MatchingBots(games, filter)
    ensures Ids(r.channel) == Ids(ch) - PingIds(t.notificationMessages, MatchingBots(games, filter))
  {
    var g := games[0];
    var nm := t.notificationMessages;
    var rest := MatchingBots(games[1..], filter);
    if g.gameType in filter {
      var all := MatchingBots(games, filter);
      assert all == {g.botName} + rest;
      if g.botName in nm {
        assert PingIds(nm, all) == {nm[g.botName]} + PingIds(nm - {g.botName}, rest);
      } else {
        assert PingIds(nm, all) == PingIds(nm - {g.botName}, rest);
      }
    }
  }

  /** `UpdateAll` only adds messages: a valid channel stays valid and every
      message already there is still found under its id. */
  lemma {:induction false} UpdateAllKeepsMessages(t: Target, ch: Channel, self: UserId, games: seq<GameInfo>)
    requires Sorted(t.watchedGames)
    ensures Chat.Valid(ch) ==> Chat.Valid(UpdateAll(t, ch, self, games).channel)
    ensures forall id: MessageId :: id < ch.nextId ==> Find(UpdateAll(t, ch, self, games).channel, id) == Find(ch, id)
    decreases |games|
  {
    if |games| > 0 {
      var s := ProcessGameUpdate(t, ch, self, games[0]);
      UpdateAllKeepsMessages(s.target, s.channel, self, games[1..]);
    }
  }

  /** In the step `r`, the ping kept for `b` is a message of `self` whose
      text announces one of `b`'s games in `games` of a type in `types`. */
  ghost predicate PingAnnounces(games: seq<GameInfo>, types: set<GameType>, self: UserId, r: Step, b: string)
  {
    && b in r.target.notificationMessages
    && exists i :: 0 <= i < |games| && games[i].botName == b && games[i].gameType in types
         && Find(r.channel, r.target.notificationMessages[b])
            == Some(Message(r.target.notificationMessages[b], self, Some(PingText(games[i])), None))
  }

  /** The ping of a newly watched game is a message of this bot whose text
      announces one of that bot's games of a followed type. */
  lemma {:induction false} UpdateAllPingText(t: Target, ch: Channel, self: UserId, games: seq<GameInfo>, b: string)
    requires Sorted(t.watchedGames) && Chat.Valid(ch)
    requires b in MatchingBots(games, t.types) && b !in Keys(t.watchedGames)
    ensures PingAnnounces(games, t.types, self, UpdateAll(t, ch, self, games), b)
    decreases |games|
  {
    if games[0].botName == b && games[0].gameType in t.types {
      FirstPingText(t, ch, self, games);
    } else {
      var s := ProcessGameUpdate(t, ch, self, games[0]);
      LaterGameOfBot(t, ch, self, games, b);
      UpdateAllPingText(s.target, s.channel, self, games[1..], b);
      AnnouncesLater(games, t.types, self, UpdateAll(t, ch, self, games), b);
    }
  }

  /** When the first game is not a followed game of `b`, `b` is still new
      and still has a followed game among the rest. */
  lemma LaterGameOfBot(t: Target, ch: Channel, self: UserId, games: seq<GameInfo>, b: string)
    requires Sorted(t.watchedGames) && Chat.Valid(ch)
    requires b in MatchingBots(games, t.types) && b !in Keys(t.watchedGames)
    requires !(games[0].botName == b && games[0].gameType in t.types)
    ensures var s := ProcessGameUpdate(t, ch, self, games[0]);
      && Sorted(s.target.watchedGames) && Chat.Valid(s.channel) && s.target.types == t.types
      && b in MatchingBots(games[1..], t.types) && b !in Keys(s.target.watchedGames)
      && UpdateAll(t, ch, self, games) == UpdateAll(s.target, s.channel, self, games[1..])
  {
  }

  /** A game announced by a later game of the list is announced by the list. */
  lemma AnnouncesLater(games: seq<GameInfo>, types: set<GameType>, self: UserId, r: Step, b: string)
    requires |games| > 0 && PingAnnounces(games[1..], types, self, r, b)
    ensures PingAnnounces(games, types, self, r, b)
  {
    var id := r.target.notificationMessages[b];
    var i :| 0 <= i < |games[1..]| && games[1..][i].botName == b && games[1..][i].gameType in types
      && Find(r.channel, id) == Some(Message(id, self, Some(PingText(games[1..][i])), None));
    assert games[i + 1] == games[1..][i];
  }

  /** The first game of a bot not yet watched is pinged under `nextId`, and
      that ping stays in the channel and in the map. */
  lemma FirstPingText(t: Target, ch: Channel, self: UserId, games: seq<GameInfo>)
    requires Sorted(t.watchedGames) && Chat.Valid(ch) && |games| > 0
    requires games[0].gameType in t.types && games[0].botName !in Keys(t.watchedGames)
    ensures var r := UpdateAll(t, ch, self, games);
      && r.target.notificationMessages[games[0].botName] == ch.nextId
      && Find(r.channel, ch.nextId) == Some(Message(ch.nextId, self, Some(PingText(games[0])), None))
    ensures PingAnnounces(games, t.types, self, UpdateAll(t, ch, self, games), games[0].botName)
  {
    var s := ProcessGameUpdate(t, ch, self, games[0]);
    var r := UpdateAll(s.target, s.channel, self, games[1..]);
    assert r == UpdateAll(t, ch, self, games);
    UpdateAllKeepsMessages(s.target, s.channel, self, games[1..]);
    assert games[0].botName == games[0].botName && games[0].gameType in t.types
      && Find(r.channel, ch.nextId) == Some(Message(ch.nextId, self, Some(PingText(games[0])), None));
  }

  /** `addGameTypes`: follow more types and take in the watcher's current
      games of any followed type. `games` is the watcher's snapshot
      (`getAll`), in the order the watcher's map hands it out. Each game
      newly watched is pinged under a new id and the ping is kept; the
      pings already kept stay. */
  function AddGameTypes(t: Target, ch: Channel, self: UserId, toAdd: set<GameType>, games: seq<GameInfo>): (r: Step)
    requires Sorted(t.watchedGames)
    ensures r.target.types == t.types + toAdd
    ensures Keys(r.target.watchedGames) == Keys(t.watchedGames) + MatchingBots(games, t.types + toAdd)
    ensures Valid(t) ==> Valid(r.target)
    ensures PingsAdded(t.notificationMessages, ch, r, MatchingBots(games, t.types + toAdd) - Keys(t.watchedGames))
  {
    UpdateAll(t.(types := t.types + toAdd), ch, self, games)
  }

  /** With distinct bot names in the snapshot (they are the keys of the
      watcher's map), every snapshot game of a followed type is watched
      with exactly its snapshot value. */
  lemma {:induction false} UpdateAllStoresGames(t: Target, ch: Channel, self: UserId, games: seq<GameInfo>)
    requires Sorted(t.watchedGames)
    requires forall i, j :: 0 <= i < j < |games| ==> games[i].botName != games[j].botName
    ensures forall i :: 0 <= i < |games| && games[i].gameType in t.types ==>
      Get(UpdateAll(t, ch, self, games).target.watchedGames, games[i].botName) == Some(games[i])
    decreases |games|
  {
    if |games| > 0 {
      var s := ProcessGameUpdate(t, ch, self, games[0]);
      var rest := games[1..];
      var w := UpdateAll(t, ch, self, games).target.watchedGames;
      assert w == UpdateAll(s.target, s.channel, self, rest).target.watchedGames;
      UpdateAllStoresGames(s.target, s.channel, self, rest);
      forall i | 0 <= i < |games| && games[i].gameType in t.types
        ensures Get(w, games[i].botName) == Some(games[i])
      {
        if i == 0 {
          MatchingBotsMembers(rest, t.types, games[0].botName);
        } else {
          assert rest[i - 1] == games[i];
        }
      }
    }
  }

  /** `removeGameTypes` as evidently intended: stop following the types and
      drop every watched game of any of them. */
  function RemoveGameTypes(t: Target, ch: Channel, toRemove: set<GameType>): (r: Step)
    requires Sorted(t.watchedGames)
    ensures r.target.types == t.types - toRemove
    ensures Keys(r.target.watchedGames) <= Keys(t.watchedGames)
    ensures Valid(t) ==> Valid(r.target)
    // the pings of the dropped games are deleted and forgotten, the rest kept
    ensures var dropped := MatchingBots(Values(t.watchedGames), toRemove);
      && r.target.notificationMessages == t.notificationMessages - dropped
      && Ids(r.channel) == Ids(ch) - PingIds(t.notificationMessages, dropped)
  {
    RemoveAll(t.(types := t.types - toRemove), ch, Values(t.watchedGames), toRemove)
  }

  function Values(w: seq<Entry<GameInfo>>): (r: seq<GameInfo>)
    ensures |r| == |w| && forall i :: 0 <= i < |w| ==> r[i] == w[i].value
  {
    seq(|w|, i requires 0 <= i < |w| => w[i].value)
  }

  /** After `RemoveGameTypes` no watched game has a removed type, and the
      games of other types are all still watched, unchanged. */
  lemma RemoveGameTypesClears(t: Target, ch: Channel, toRemove: set<GameType>)
    requires Valid(t)
    ensures var w := RemoveGameTypes(t, ch, toRemove).target.watchedGames;
      && (forall k :: k in Keys(w) ==> Get(w, k).value.gameType !in toRemove)
      && (forall k :: k in Keys(t.watchedGames) && Get(t.watchedGames, k).value.gameType !in toRemove ==>
            Get(w, k) == Get(t.watchedGames, k))
  {
    var vs := Values(t.watchedGames);
    var w := RemoveGameTypes(t, ch, toRemove).target.watchedGames;
    forall k | k in Keys(w) ensures Get(w, k).value.gameType !in toRemove {
      var v := Get(t.watchedGames, k).value;
      GetFrom(t.watchedGames, k);
      var i :| 0 <= i < |t.watchedGames| && t.watchedGames[i].key == k && t.watchedGames[i].value == v;
      MatchingBotsMembers(vs, toRemove, k);
      assert vs[i] == v;
    }
    forall k | k in Keys(t.watchedGames) && Get(t.watchedGames, k).value.gameType !in toRemove
      ensures Get(w, k) == Get(t.watchedGames, k)
    {
      MatchingBotsMembers(vs, toRemove, k);
      if k in MatchingBots(vs, toRemove) {
        var i :| 0 <= i < |vs| && vs[i].gameType in toRemove && vs[i].botName == k;
        GetAt(t.watchedGames, i);
        assert false;
      }
    }
  }

  /** The pings `RemoveGameTypes` drops are exactly those of the games of a
      removed type: such a game's ping is forgotten and deleted from the
      channel, and every other game keeps its ping. */
  lemma RemoveGameTypesPings(t: Target, ch: Channel, toRemove: set<GameType>, b: string)
    requires Valid(t) && b in t.notificationMessages
    ensures var r := RemoveGameTypes(t, ch, toRemove);
      && (b in r.target.notificationMessages <==> Get(t.watchedGames, b).value.gameType !in toRemove)
      && (b in r.target.notificationMessages ==> r.target.notificationMessages[b] == t.notificationMessages[b])
      && (Get(t.watchedGames, b).value.gameType in toRemove ==> t.notificationMessages[b] !in Ids(r.channel))
  {
    var vs := Values(t.watchedGames);
    var dropped := MatchingBots(vs, toRemove);
    MatchingBotsMembers(vs, toRemove, b);
    GetFrom(t.watchedGames, b);
    var i :| 0 <= i < |t.watchedGames| && t.watchedGames[i].key == b
      && t.watchedGames[i].value == Get(t.watchedGames, b).value;
    assert vs[i] == Get(t.watchedGames, b).value;
    if b in dropped {
      var j :| 0 <= j < |vs| && vs[j].gameType in toRemove && vs[j].botName == b;
      GetAt(t.watchedGames, j);
      assert t.notificationMessages[b] in PingIds(t.notificationMessages, dropped);
    }
  }

  /** The index of the first watched game, in bot-name order, whose type is
      in `toRemove`. */
  function FirstOfTypes(games: seq<GameInfo>, toRemove: set<GameType>): (r: Option<nat>)
    ensures r.None? <==> forall i :: 0 <= i < |games| ==> games[i].gameType !in toRemove
    ensures r.Some? ==>
      && r.value < |games| && games[r.value].gameType in toRemove
      && forall i :: 0 <= i < r.value ==> games[i].gameType !in toRemove
  {
    if |games| == 0 then None
    else if games[0].gameType in toRemove then Some(0)
    else
      var rest := FirstOfTypes(games[1..], toRemove);
      assert forall i :: 1 <= i < |games| ==> games[1..][i - 1] == games[i];
      if rest.None? then None else Some(rest.value + 1)
  }

  /** `removeGameTypes` as written: removing a game from the TreeMap while
      its entry iterator is live makes the iterator's next step throw a
      ConcurrentModificationException, which the executor swallows. Only
      the first matching game is removed; the types are gone already. */
  function RemoveGameTypesAsWritten(t: Target, ch: Channel, toRemove: set<GameType>): (r: Step)
    requires Sorted(t.watchedGames)
    ensures r.target.types == t.types - toRemove
    ensures |Keys(t.watchedGames) - Keys(r.target.watchedGames)| <= 1
    // no watched game of a removed type: only the types change
    ensures FirstOfTypes(Values(t.watchedGames), toRemove).None? ==>
      r.target == t.(types := t.types - toRemove) && r.channel == ch
    // otherwise exactly the first such game in bot-name order goes, with its ping
    ensures FirstOfTypes(Values(t.watchedGames), toRemove).Some? ==>
      var g := Values(t.watchedGames)[FirstOfTypes(Values(t.watchedGames), toRemove).value];
      && Keys(r.target.watchedGames) == Keys(t.watchedGames) - {g.botName}
      && (forall k :: k != g.botName ==> Get(r.target.watchedGames, k) == Get(t.watchedGames, k))
      && r.target.notificationMessages == t.notificationMessages - {g.botName}
      && (g.botName in t.notificationMessages ==>
            Ids(r.channel) == Ids(ch) - {t.notificationMessages[g.botName]})
      && (g.botName !in t.notificationMessages ==> r.channel == ch)
  {
    var t' := t.(types := t.types - toRemove);
    var vs := Values(t.watchedGames);
    match FirstOfTypes(vs, toRemove)
    case None => Step(t', ch)
    case Some(i) =>
      var r := RemoveGame(t', ch, vs[i]);
      assert Keys(t.watchedGames) - Keys(r.target.watchedGames) <= {vs[i].botName};
      r
  }

  /** A channel following only AoC with two AoC games: as written, removing
      AoC leaves the second game watched for good, since its later remove
      event no longer passes the type filter; the corrected version drops
      both. */
  lemma RemoveGameTypesCounterexample(ch: Channel, self: UserId)
    ensures var a := GameInfo(0, "AoC 1", "", AOC, "a", "1", "");
      var b := GameInfo(1, "AoC 2", "", AOC, "b", "2", "");
      var t := Target({AOC}, None, map[], [Entry("a", a), Entry("b", b)]);
      && Valid(t)
      && var bad := RemoveGameTypesAsWritten(t, ch, {AOC});
      && Keys(bad.target.watchedGames) == {"b"}
      && Get(bad.target.watchedGames, "b") == Some(b)
      && ProcessGameRemove(bad.target, bad.channel, b) == bad
      && Keys(RemoveGameTypes(t, ch, {AOC}).target.watchedGames) == {}
  {
    var a := GameInfo(0, "AoC 1", "", AOC, "a", "1", "");
    var b := GameInfo(1, "AoC 2", "", AOC, "b", "2", "");
    var w := [Entry("a", a), Entry("b", b)];
    var t := Target({AOC}, None, map[], w);
    assert Less("a", "b");
    assert Keys(w) == {"a", "b"} by { assert w[0].key == "a" && w[1].key == "b"; }
    assert Get(w, "a") == Some(a);
    assert Get(w, "b") == Some(b);
    assert Valid(t);
    var vs := Values(w);
    assert vs == [a, b];
    assert FirstOfTypes(vs, {AOC}) == Some(0);
    assert MatchingBots(vs, {AOC}) == {"a", "b"} by {
      assert vs[1..] == [b];
      assert MatchingBots(vs[1..][1..], {AOC}) == {};
    }
  }

  /** `isTrackedMessage`: the status message or one of the pings. */
  function IsTrackedMessage(t: Target, m: MessageId): (r: bool)
    ensures r <==> (t.lastMessage == Some(m) ||
      exists bot :: bot in t.notificationMessages && t.notificationMessages[bot] == m)
  {
    t.lastMessage == Some(m) || m in t.notificationMessages.Values
  }

  /** Every ping kept is tracked. */
  lemma PingsAreTracked(t: Target, bot: string)
    requires bot in t.notificationMessages
    ensures IsTrackedMessage(t, t.notificationMessages[bot])
  {
  }

  /** A ping just sent for a new game is tracked. */
  lemma NewPingIsTracked(t: Target, ch: Channel, self: UserId, info: GameInfo)
    requires Sorted(t.watchedGames) && info.botName !in Keys(t.watchedGames)
    ensures IsTrackedMessage(UpdateGame(t, ch, self, info).target, ch.nextId)
  {
    var r := UpdateGame(t, ch, self, info).target;
    assert r.notificationMessages[info.botName] == ch.nextId;
  }

  /** Deletes the given messages in turn. */
  function DeleteAll(ch: Channel, ids: seq<MessageId>): (r: Channel)
    ensures forall id :: id in Ids(r) <==> id in Ids(ch) && id !in ids
    ensures forall m :: m in r.messages <==> m in ch.messages && m.id !in ids
    ensures Chat.Valid(ch) ==> Chat.Valid(r)
    ensures r.nextId == ch.nextId
    decreases |ids|
  {
    if |ids| == 0 then ch else DeleteAll(Delete(ch, ids[0]), ids[1..])
  }

  /** The messages `clearUntrackedMessages` deletes: among the newest
      `FetchedMessageCount`, those posted by this bot and not tracked. */
  function Stale(t: Target, ch: Channel, self: UserId): (r: seq<MessageId>)
  {
    var history := Recent(ch, FetchedMessageCount);
    StaleIn(t, history, self)
  }

  function StaleIn(t: Target, history: seq<Message>, self: UserId): (r: seq<MessageId>)
    ensures forall id :: id in r <==>
      exists m :: m in history && m.id == id && m.author == self && !IsTrackedMessage(t, id)
  {
    if |history| == 0 then []
    else
      var m := history[0];
      var rest := StaleIn(t, history[1..], self);
      assert forall x :: x in history <==> x == m || x in history[1..];
      if m.author == self && !IsTrackedMessage(t, m.id) then [m.id] + rest else rest
  }

  /** `clearUntrackedMessages`. */
  function ClearUntrackedMessages(t: Target, ch: Channel, self: UserId): (r: Channel)
    ensures Chat.Valid(ch) ==> Chat.Valid(r)
    ensures r.nextId == ch.nextId
  {
    DeleteAll(ch, Stale(t, ch, self))
  }

  /** What clearing keeps and what it removes: a message survives exactly
      when it is not one of this bot's untracked messages among the newest
      `FetchedMessageCount`. In particular every tracked message and every
      message of someone else stays, and nothing is posted. */
  lemma ClearUntrackedMessagesKeeps(t: Target, ch: Channel, self: UserId, m: Message)
    requires Chat.Valid(ch)
    ensures m in ClearUntrackedMessages(t, ch, self).messages <==>
      m in ch.messages &&
      !(m in Recent(ch, FetchedMessageCount) && m.author == self && !IsTrackedMessage(t, m.id))
  {
    var history := Recent(ch, FetchedMessageCount);
    var s := Stale(t, ch, self);
    if m in ch.messages && m.id in s {
      var x :| x in history && x.id == m.id && x.author == self && !IsTrackedMessage(t, m.id);
      assert x in ch.messages;
      UniqueIds(ch, x, m);
    }
  }

  /** Messages of a valid channel are told apart by their ids. */
  lemma UniqueIds(ch: Channel, a: Message, b: Message)
    requires Chat.Valid(ch) && a in ch.messages && b in ch.messages && a.id == b.id
    ensures a == b
  {
    var i :| 0 <= i < |ch.messages| && ch.messages[i] == a;
    var j :| 0 <= j < |ch.messages| && ch.messages[j] == b;
  }

  /** `sendInfoMessage`: post the status message the first time; later,
      edit it while it is still the newest message of the channel, and
      otherwise delete it and post it anew so it stays at the bottom. */
  function SendInfoMessage(t: Target, ch: Channel, self: UserId, text: Option<string>, embed: Option<Embed>): (r: Step)
    ensures r.target == t.(lastMessage := r.target.lastMessage)
    ensures r.target.lastMessage.Some?
    ensures t.lastMessage.None? ==>
      r.target.lastMessage == Some(ch.nextId) && Ids(r.channel) == Ids(ch) + {ch.nextId}
    ensures t.lastMessage.Some? && Latest(ch) != t.lastMessage ==>
      && r.target.lastMessage == Some(ch.nextId)
      && Ids(r.channel) == Ids(ch) - {t.lastMessage.value} + {ch.nextId}
    ensures t.lastMessage.Some? && Latest(ch) == t.lastMessage ==>
      && r.target.lastMessage == t.lastMessage
      && Ids(r.channel) == Ids(ch)
  {
    match t.lastMessage
    case None =>
      Step(t.(lastMessage := Some(ch.nextId)), Send(ch, self, text, embed))
    case Some(last) =>
      if Latest(ch) != Some(last) then
        Step(t.(lastMessage := Some(ch.nextId)), Send(Delete(ch, last), self, text, embed))
      else
        Step(t, Edit(ch, last, text, embed))
  }

  /** After `SendInfoMessage` the tracked status message is the newest
      message of the channel and shows exactly the given content. */
  lemma SendInfoMessageShows(t: Target, ch: Channel, self: UserId, text: Option<string>, embed: Option<Embed>)
    ensures Chat.Valid(ch) ==>
      var r := SendInfoMessage(t, ch, self, text, embed);
      && Chat.Valid(r.channel)
      && Latest(r.channel) == r.target.lastMessage
      && var m := Find(r.channel, r.target.lastMessage.value);
      && m.Some? && m.value.text == text && m.value.embed == embed
  {
    var r := SendInfoMessage(t, ch, self, text, embed);
    if !Chat.Valid(ch) {
    } else if t.lastMessage.Some? && Latest(ch) == t.lastMessage {
      var last := t.lastMessage.value;
      var n := |ch.messages|;
      assert r.channel.messages[n - 1].id == last;
      var m := Find(r.channel, last);
      assert m.Some?;
      var i :| 0 <= i < |r.channel.messages| && r.channel.messages[i] == m.value;
    } else if t.lastMessage.Some? {
      var d := Delete(ch, t.lastMessage.value);
      assert Chat.Valid(d);
    }
  }

  /** The status message's content: the embed when embeds are allowed,
      otherwise the plain-text fallback. `None` when no type is followed,
      where the header's `reduce` throws and the timer swallows it. The
      fallback uses the game list with the line precedence corrected;
      `InfoContentAsWritten` is the text the source builds. */
  function InfoContent(t: Target, canEmbed: bool): (r: Option<(Option<string>, Option<Embed>)>)
    ensures r.None? <==> t.types == {}
    ensures r.Some? && canEmbed ==>
      r.value == (Some(""), Some(Embed(HeaderString(t.types, false).value, GameList(t.watchedGames, false))))
    ensures r.Some? && !canEmbed ==>
      r.value == (Some(HeaderString(t.types, true).value + GameList(t.watchedGames, true)), None)
  {
    if t.types == {} then None
    else if canEmbed then
      Some((Some(""), Some(Embed(HeaderString(t.types, false).value, GameList(t.watchedGames, false)))))
    else
      Some((Some(HeaderString(t.types, true).value + GameList(t.watchedGames, true)), None))
  }

  /** `buildInfoEmbed` / `buildInfoString` exactly as written: the fallback
      text takes its game list from the as-written builder. The embed is
      the same as the corrected one, since the precedence slip only touches
      the fallback lines. */
  function InfoContentAsWritten(t: Target, canEmbed: bool): (r: Option<(Option<string>, Option<Embed>)>)
    ensures r.None? <==> t.types == {}
    ensures canEmbed ==> r == InfoContent(t, canEmbed)
    ensures r.Some? && !canEmbed ==>
      r.value == (Some(HeaderString(t.types, true).value + GameListAsWritten(t.watchedGames, true)), None)
  {
    if t.types == {} then None
    else if canEmbed then
      EmbedListAsWrittenAgrees(t.watchedGames);
      Some((Some(""), Some(Embed(HeaderString(t.types, false).value, GameListAsWritten(t.watchedGames, false)))))
    else
      Some((Some(HeaderString(t.types, true).value + GameListAsWritten(t.watchedGames, true)), None))
  }

  /** With one watched game and embeds off, the status text the source posts
      ends in a bare `| ` and differs from the corrected text, whose last
      line names the game's bot. */
  lemma InfoContentAsWrittenDiffers(t: Target, e: Entry<GameInfo>)
    requires t.types != {} && t.watchedGames == [e]
    ensures InfoContentAsWritten(t, false).value.0 ==
      Some(HeaderString(t.types, true).value + ListHeaderFallback + "| ")
    ensures InfoContent(t, false).value.0 ==
      Some(HeaderString(t.types, true).value + ListHeaderFallback + Line(e, |e.key|, true))
    ensures InfoContentAsWritten(t, false) != InfoContent(t, false)
  {
    FallbackSingleGame(e);
    var h := HeaderString(t.types, true).value;
    var l := Line(e, |e.key|, true);
    var a := InfoContentAsWritten(t, false).value.0.value;
    var c := InfoContent(t, false).value.0.value;
    assert a == h + (ListHeaderFallback + "| ");
    assert c == h + (ListHeaderFallback + l);
    AppendAssoc(h, ListHeaderFallback, "| ");
    AppendAssoc(h, ListHeaderFallback, l);
    LineLayout(e, |e.key|, true);
    assert |a| < |c|;
  }

  lemma AppendAssoc(a: string, b: string, c: string)
    ensures a + (b + c) == a + b + c
  {
  }

  /** Hand the content, if any, to `sendInfoMessage`; the tracked status
      message then shows exactly that content. */
  function PostContent(t: Target, ch: Channel, self: UserId, c: Option<(Option<string>, Option<Embed>)>): (r: Step)
    ensures c.None? ==> r == Step(t, ch)
    ensures c.Some? ==> r.target.lastMessage.Some? && Latest(r.channel) == r.target.lastMessage
    ensures c.Some? && Chat.Valid(ch) ==>
      var m := Find(r.channel, r.target.lastMessage.value);
      && Chat.Valid(r.channel)
      && m.Some? && m.value.text == c.value.0 && m.value.embed == c.value.1
  {
    match c
    case None => Step(t, ch)
    case Some((text, embed)) =>
      SendInfoMessageShows(t, ch, self, text, embed);
      SendInfoMessage(t, ch, self, text, embed)
  }

  /** `updateInfoMessage`, with the corrected fallback list. */
  function UpdateInfoMessage(t: Target, ch: Channel, self: UserId, canEmbed: bool): (r: Step)
    ensures t.types == {} ==> r == Step(t, ch)
    ensures t.types != {} ==> r.target.lastMessage.Some? && Latest(r.channel) == r.target.lastMessage
    // the tracked status message shows the content built from the target
    ensures t.types != {} && Chat.Valid(ch) ==>
      var c := InfoContent(t, canEmbed).value;
      var m := Find(r.channel, r.target.lastMessage.value);
      && m.Some? && m.value.text == c.0 && m.value.embed == c.1
  {
    PostContent(t, ch, self, InfoContent(t, canEmbed))
  }

  /** `updateInfoMessage` exactly as written. */
  function UpdateInfoMessageAsWritten(t: Target, ch: Channel, self: UserId, canEmbed: bool): (r: Step)
    ensures t.types == {} ==> r == Step(t, ch)
    ensures t.types != {} ==> r.target.lastMessage.Some? && Latest(r.channel) == r.target.lastMessage
    ensures t.types != {} && Chat.Valid(ch) ==>
      var c := InfoContentAsWritten(t, canEmbed).value;
      var m := Find(r.channel, r.target.lastMessage.value);
      && m.Some? && m.value.text == c.0 && m.value.embed == c.1
  {
    PostContent(t, ch, self, InfoContentAsWritten(t, canEmbed))
  }

  /** The status content names every followed type: in the embed's
      description, or in the fallback text. */
  lemma InfoContentNamesTypes(t: Target, canEmbed: bool, gt: GameType)
    requires gt in t.types
    ensures var c := InfoContent(t, canEmbed).value;
      && (canEmbed ==> c.1.Some? && Contains(c.1.value.description, TypeName(gt)))
      && (!canEmbed ==> c.0.Some? && Contains(c.0.value, TypeName(gt)))
  {
    var c := InfoContent(t, canEmbed).value;
    HeaderNamesEveryType(t.types, !canEmbed, gt);
    if !canEmbed {
      var h := HeaderString(t.types, true).value;
      var g := GameList(t.watchedGames, true);
      assert c.0.value == h + g;
      FallbackTextNames(h, g, TypeName(gt));
    }
  }

  lemma FallbackTextNames(h: string, g: string, name: string)
    requires Contains(h, name)
    ensures Contains(h + g, name)
  {
    var o :| OccursAt(h, name, o);
    OccursInContext("", h, g, name, o);
    assert "" + h + g == h + g;
  }

  /** The status message, once updated, names every followed type. */
  lemma InfoMessageNamesTypes(t: Target, ch: Channel, self: UserId, canEmbed: bool, gt: GameType)
    requires Chat.Valid(ch) && gt in t.types
    ensures var r := UpdateInfoMessage(t, ch, self, canEmbed);
      var m := Find(r.channel, r.target.lastMessage.value);
      && m.Some?
      && (canEmbed ==> m.value.embed.Some? && Contains(m.value.embed.value.description, TypeName(gt)))
      && (!canEmbed ==> m.value.text.Some? && Contains(m.value.text.value, TypeName(gt)))
  {
    var c := InfoContent(t, canEmbed).value;
    SendInfoMessageShows(t, ch, self, c.0, c.1);
    InfoContentNamesTypes(t, canEmbed, gt);
  }

  /** `shutdown`: forget the pings and the status message, then clear this
      bot's messages; the types and games are left as they are. */
  function Shutdown(t: Target, ch: Channel, self: UserId): (r: Step)
    ensures r.target == t.(notificationMessages := map[], lastMessage := None)
    ensures Chat.Valid(ch) ==> Chat.Valid(r.channel)
  {
    var t' := t.(notificationMessages := map[], lastMessage := None);
    Step(t', ClearUntrackedMessages(t', ch, self))
  }

  /** After shutdown none of this bot's newest messages is left, the pings
      and the status message included; other authors' messages stay. */
  lemma ShutdownClearsOwnMessages(t: Target, ch: Channel, self: UserId, m: Message)
    requires Chat.Valid(ch) && m in ch.messages
    ensures m in Shutdown(t, ch, self).channel.messages <==>
      m.author != self || m !in Recent(ch, FetchedMessageCount)
  {
    var t' := t.(notificationMessages := map[], lastMessage := None);
    ClearUntrackedMessagesKeeps(t', ch, self, m);
  }

  /** `isEmpty`: no type is followed any more. */
  predicate IsEmpty(t: Target)
  {
    t.types == {}
  }

  /** The constructor: clear stale messages, then take in the watcher's
      games of the followed types. */
  function Create(types: set<GameType>, ch: Channel, self: UserId, games: seq<GameInfo>): (r: Step)
    ensures Valid(r.target)
    ensures r.target.types == types && r.target.lastMessage == None
    ensures Keys(r.target.watchedGames) == MatchingBots(games, types)
    // every watched game is pinged under a new id, after the clearing
    ensures PingsAdded(map[], ClearUntrackedMessages(Empty(types), ch, self), r, MatchingBots(games, types))
  {
    var c := ClearUntrackedMessages(Empty(types), ch, self);
    CreateSteps(types, c, self, games);
    UpdateAll(Empty(types), c, self, games)
  }

  /** Taking in the watcher's games from an empty target, on any channel. */
  lemma CreateSteps(types: set<GameType>, c: Channel, self: UserId, games: seq<GameInfo>)
    ensures var r := UpdateAll(Empty(types), c, self, games);
      && Valid(r.target)
      && Keys(r.target.watchedGames) == MatchingBots(games, types)
      && PingsAdded(map[], c, r, MatchingBots(games, types))
  {
    var t := Empty(types);
    assert MatchingBots(games, types) - Keys(t.watchedGames) == MatchingBots(games, types);
  }


}

=== FILE: rendering.dfy ===
/** The text of a channel's status message: the header naming the watched
    game types and the table of hosted games, in embed form and in the
    plain-text fallback used when embeds are not allowed. */
module Rendering {
  import opened Common
  import opened Strings
  import opened TreeMap
  import opened GameTypes
  import opened Watcher

  const NoGames := "No games hosted right now."
  const NoGamesFallback := "```No games hosted right now.```"
  const ListHeaderFallback := "```Currently hosted games:\n"
  const TypesLabel := "Currently active game types: "

  /** The types of `order` that are in `types`, in that order: exactly the
      followed types that `order` mentions, each once if `order` repeats none. */
  function Listed(types: set<GameType>, order: seq<GameType>): (r: seq<GameType>)
    ensures |r| <= |order|
    ensures forall t :: t in r <==> t in types && t in order
    ensures (forall i, j :: 0 <= i < j < |order| ==> order[i] != order[j]) ==>
      forall i, j :: 0 <= i < j < |r| ==> r[i] != r[j]
  {
    if |order| == 0 then []
    else
      var rest := Listed(types, order[1..]);
      assert forall i :: 1 <= i < |order| ==> order[1..][i - 1] == order[i];
      assert order == [order[0]] + order[1..];
      if order[0] in types then [order[0]] + rest else rest
  }

  /** The names of the types of `order` that are in `types`, in that order.
      The source iterates a HashSet, whose order is unspecified; the model
      uses declaration order. */
  function TypeNames(types: set<GameType>, order: seq<GameType>): (r: seq<string>)
    ensures |r| <= |order|
    ensures (exists i :: 0 <= i < |order| && order[i] in types) <==> |r| > 0
    ensures forall i :: 0 <= i < |order| && order[i] in types ==> TypeName(order[i]) in r
  {
    var ts := Listed(types, order);
    var r := seq(|ts|, k requires 0 <= k < |ts| => TypeName(ts[k]));
    forall i | 0 <= i < |order| && order[i] in types ensures TypeName(order[i]) in r {
      var k :| 0 <= k < |ts| && ts[k] == order[i];
      assert r[k] == TypeName(order[i]);
    }
    assert |ts| > 0 ==> ts[0] in types && ts[0] in order;
    r
  }

  /** Nothing else is named: the k-th name is that of the k-th listed type. */
  lemma TypeNamesListed(types: set<GameType>, order: seq<GameType>)
    ensures |TypeNames(types, order)| == |Listed(types, order)|
    ensures forall k :: 0 <= k < |Listed(types, order)| ==>
      TypeNames(types, order)[k] == TypeName(Listed(types, order)[k])
  {
  }

  function HeaderPrefix(fallback: bool): string
  {
    (if fallback then "```" else "") + TypesLabel + (if fallback then "\n" else "")
  }

  /** `buildHeaderString`. Joining the names with `reduce` throws on an
      empty type set; that is the `None` result. */
  function HeaderString(types: set<GameType>, fallback: bool): (r: Option<string>)
    ensures r.None? <==> types == {}
  {
    var names := TypeNames(types, DeclarationOrder);
    assert types != {} ==> |names| > 0 by {
      if types != {} {
        var t :| t in types;
        assert DeclarationOrder[Rank(t)] in types;
      }
    }
    HeaderFor(names, fallback)
  }

  /** The header around a list of names. */
  function HeaderFor(names: seq<string>, fallback: bool): (r: Option<string>)
    ensures r.None? <==> |names| == 0
  {
    if |names| == 0 then None
    else Some(HeaderPrefix(fallback) + Join(names, ", ") + (if fallback then "```" else ""))
  }

  /** A header starts with its label and names each of its names. */
  lemma HeaderForNames(names: seq<string>, fallback: bool, i: nat)
    requires i < |names|
    ensures var h := HeaderFor(names, fallback).value;
      && h[..|HeaderPrefix(fallback)|] == HeaderPrefix(fallback)
      && Contains(h, names[i])
  {
    JoinContainsParts(names, ", ", i);
    var j := Join(names, ", ");
    var o := JoinOffset(names, ", ", i);
    assert OccursAt(j, names[i], o);
    OccursInContext(HeaderPrefix(fallback), j, if fallback then "```" else "", names[i], o);
  }

  /** The header starts with its label and names every watched type. */
  lemma HeaderNamesEveryType(types: set<GameType>, fallback: bool, t: GameType)
    requires t in types
    ensures HeaderString(types, fallback).Some?
    ensures var h := HeaderString(types, fallback).value;
      && h[..|HeaderPrefix(fallback)|] == HeaderPrefix(fallback)
      && Contains(h, TypeName(t))
  {
    var names := TypeNames(types, DeclarationOrder);
    assert DeclarationOrder[Rank(t)] == t;
    var i :| 0 <= i < |names| && names[i] == TypeName(t);
    HeaderForNames(names, fallback, i);
  }

  /** The header is its label, then the names of exactly the followed types,
      each once, joined by ", ", then the closing mark in the fallback. */
  lemma HeaderListsExactlyFollowed(types: set<GameType>, fallback: bool)
    requires types != {}
    ensures var ts := Listed(types, DeclarationOrder);
      var names := TypeNames(types, DeclarationOrder);
      && (forall t :: t in ts <==> t in types)
      && (forall i, j :: 0 <= i < j < |ts| ==> ts[i] != ts[j])
      && |names| == |ts| && (forall k :: 0 <= k < |ts| ==> names[k] == TypeName(ts[k]))
      && HeaderString(types, fallback) ==
           Some(HeaderPrefix(fallback) + Join(names, ", ") + (if fallback then "```" else ""))
  {
    DeclarationOrderDistinct();
    TypeNamesListed(types, DeclarationOrder);
  }

  /** The length of the longest bot name: the column width of the table. */
  function Longest(entries: seq<Entry<GameInfo>>): (r: nat)
    ensures forall i :: 0 <= i < |entries| ==> |entries[i].key| <= r
    ensures |entries| > 0 ==> exists i :: 0 <= i < |entries| && |entries[i].key| == r
    ensures |entries| == 0 ==> r == 0
  {
    if |entries| == 0 then 0
    else
      var rest := Longest(entries[1..]);
      assert forall i :: 1 <= i < |entries| ==> entries[1..][i - 1] == entries[i];
      if |entries[0].key| > rest then |entries[0].key| else rest
  }

  /** `bot` padded to `width`, then ` --- (count) title`. */
  function LineBody(e: Entry<GameInfo>, width: nat): string
    requires |e.key| <= width
  {
    PadRight(e.key, width) + " --- (" + e.value.playerCount + ") " + e.value.name
  }

  /** One table line as evidently intended: the body in backticks, or after
      `| ` in the fallback. */
  function Line(e: Entry<GameInfo>, width: nat, fallback: bool): string
    requires |e.key| <= width
  {
    if fallback then "| " + LineBody(e, width) + "\n" else "`" + LineBody(e, width) + "`\n"
  }

  /** One table line as written: `if (fallback) "| " else "`" + ... ` binds the
      whole concatenation to the else branch, so the fallback gets only `| `. */
  function LineAsWritten(e: Entry<GameInfo>, width: nat, fallback: bool): string
    requires |e.key| <= width
  {
    if fallback then "| " else "`" + LineBody(e, width) + "`\n"
  }

  function Lines(entries: seq<Entry<GameInfo>>, fallback: bool): (r: seq<string>)
    ensures |r| == |entries|
  {
    var w := Longest(entries);
    seq(|entries|, i requires 0 <= i < |entries| => Line(entries[i], w, fallback))
  }

  function LinesAsWritten(entries: seq<Entry<GameInfo>>, fallback: bool): (r: seq<string>)
    ensures |r| == |entries|
  {
    var w := Longest(entries);
    seq(|entries|, i requires 0 <= i < |entries| => LineAsWritten(entries[i], w, fallback))
  }

  /** The rest of `buildGameListString` around the lines. */
  function Assemble(fallback: bool, lines: seq<string>): string
  {
    if fallback && |lines| == 0 then NoGamesFallback
    else
      var message := (if fallback then ListHeaderFallback else "") + Concat(lines);
      if message == "" then NoGames else message
  }

  /** `buildGameListString` with the line precedence corrected. */
  function GameList(entries: seq<Entry<GameInfo>>, fallback: bool): (r: string)
    ensures |entries| == 0 ==> r == (if fallback then NoGamesFallback else NoGames)
  {
    Assemble(fallback, Lines(entries, fallback))
  }

  /** `buildGameListString` exactly as written. */
  function GameListAsWritten(entries: seq<Entry<GameInfo>>, fallback: bool): (r: string)
    ensures |entries| == 0 ==> r == (if fallback then NoGamesFallback else NoGames)
  {
    Assemble(fallback, LinesAsWritten(entries, fallback))
  }

  lemma ConcatNonEmpty(lines: seq<string>)
    requires |lines| > 0 && |lines[|lines| - 1]| > 0
    ensures Concat(lines) != ""
  {
  }

  /** A non-empty table is the header (fallback only) followed by one line
      per game, in the order of the map, which is ascending bot name. */
  lemma GameListIsLines(entries: seq<Entry<GameInfo>>, fallback: bool)
    requires |entries| > 0
    ensures GameList(entries, fallback) ==
      (if fallback then ListHeaderFallback else "") + Concat(Lines(entries, fallback))
  {
    var ls := Lines(entries, fallback);
    ConcatNonEmpty(ls);
  }

  /** The layout of a line: in the normal form the bot name sits in a
      backtick-opened column exactly `width` wide, padded with spaces, and
      ` --- (` always starts at the same column; the corrected fallback
      puts the same column after `| `. */
  lemma LineLayout(e: Entry<GameInfo>, width: nat, fallback: bool)
    requires |e.key| <= width
    ensures var l := Line(e, width, fallback);
      var start := if fallback then 2 else 1;
      && |l| >= start + width + 6
      && l[..start] == (if fallback then "| " else "`")
      && l[start..start + |e.key|] == e.key
      && (forall i :: start + |e.key| <= i < start + width ==> l[i] == ' ')
      && l[start + width..start + width + 6] == " --- ("
      && l[|l| - 1] == '\n'
  {
    LineFrame(e, width, fallback, 0, 0);
    LineName(e, width, fallback);
    LinePadding(e, width, fallback);
    LineDashes(e, width, fallback);
  }

  lemma LineName(e: Entry<GameInfo>, width: nat, fallback: bool)
    requires |e.key| <= width
    ensures |Line(e, width, fallback)| >= (if fallback then 2 else 1) + width + 6
    ensures var start := if fallback then 2 else 1;
      Line(e, width, fallback)[start..start + |e.key|] == e.key
  {
    var pad := PadRight(e.key, width);
    LineFrame(e, width, fallback, 0, |e.key|);
    BodyHead(e, width, 0, |e.key|);
    SliceOfLeft(pad, " --- (", 0, |e.key|);
  }

  lemma LinePadding(e: Entry<GameInfo>, width: nat, fallback: bool)
    requires |e.key| <= width
    ensures var l := Line(e, width, fallback);
      var start := if fallback then 2 else 1;
      |l| >= start + width && forall i :: start + |e.key| <= i < start + width ==> l[i] == ' '
  {
    var pad := PadRight(e.key, width);
    var l := Line(e, width, fallback);
    var start := if fallback then 2 else 1;
    LineFrame(e, width, fallback, |e.key|, width);
    BodyHead(e, width, |e.key|, width);
    SliceOfLeft(pad, " --- (", |e.key|, width);
    var seg := l[start + |e.key|..start + width];
    assert seg == pad[|e.key|..width];
    forall i | start + |e.key| <= i < start + width ensures l[i] == ' ' {
      assert l[i] == seg[i - start - |e.key|];
    }
  }

  lemma LineDashes(e: Entry<GameInfo>, width: nat, fallback: bool)
    requires |e.key| <= width
    ensures var start := if fallback then 2 else 1;
      && |Line(e, width, fallback)| >= start + width + 6
      && Line(e, width, fallback)[start + width..start + width + 6] == " --- ("
  {
    LineFrame(e, width, fallback, width, width + 6);
    BodyHead(e, width, width, width + 6);
    SliceOfRight(PadRight(e.key, width), " --- (", 0, 6);
  }

  /** A line is its opening mark, the body, then its closing mark. */
  lemma LineFrame(e: Entry<GameInfo>, width: nat, fallback: bool, x: nat, y: nat)
    requires |e.key| <= width && x <= y <= |LineBody(e, width)|
    ensures var l := Line(e, width, fallback);
      var start := if fallback then 2 else 1;
      && |l| == start + |LineBody(e, width)| + (if fallback then 1 else 2)
      && l[..start] == (if fallback then "| " else "`")
      && l[start + x..start + y] == LineBody(e, width)[x..y]
      && l[|l| - 1] == '\n'
  {
    var open := if fallback then "| " else "`";
    var close := if fallback then "\n" else "`\n";
    var body := LineBody(e, width);
    assert Line(e, width, fallback) == open + body + close;
    SliceOfLeft(open + body, close, 0, |open|);
    SliceOfLeft(open, body, 0, |open|);
    SliceOfLeft(open + body, close, |open| + x, |open| + y);
    SliceOfRight(open, body, x, y);
  }

  /** A line's body opens with the padded name, then ` --- (`. */
  lemma BodyHead(e: Entry<GameInfo>, width: nat, x: nat, y: nat)
    requires |e.key| <= width && x <= y <= width + 6
    ensures |LineBody(e, width)| >= width + 6
    ensures LineBody(e, width)[x..y] == (PadRight(e.key, width) + " --- (")[x..y]
  {
    var head := PadRight(e.key, width) + " --- (";
    var mid := head + e.value.playerCount + ") ";
    assert LineBody(e, width) == mid + e.value.name;
    SliceOfLeft(mid, e.value.name, x, y);
    SliceOfLeft(head + e.value.playerCount, ") ", x, y);
    SliceOfLeft(head, e.value.playerCount, x, y);
  }

  /** Lines follow the map's order: for a sorted map, the bot name shown at
      the start of an earlier line comes before the one shown on a later line. */
  lemma LinesInBotOrder(entries: seq<Entry<GameInfo>>, fallback: bool, i: nat, j: nat)
    requires Sorted(entries) && i < j < |entries|
    ensures var ls := Lines(entries, fallback);
      var start := if fallback then 2 else 1;
      && |ls[i]| >= start + |entries[i].key| && ls[i][start..start + |entries[i].key|] == entries[i].key
      && |ls[j]| >= start + |entries[j].key| && ls[j][start..start + |entries[j].key|] == entries[j].key
      && Less(entries[i].key, entries[j].key)
  {
    var w := Longest(entries);
    LineLayout(entries[i], w, fallback);
    LineLayout(entries[j], w, fallback);
  }

  /** As written, every fallback line is just `| `: the table names no game. */
  lemma FallbackLinesAsWrittenAreBare(entries: seq<Entry<GameInfo>>)
    ensures forall i :: 0 <= i < |entries| ==> LinesAsWritten(entries, true)[i] == "| "
  {
  }

  /** The precedence slip only touches the fallback: with embeds the
      as-written and the corrected builders give the same text. */
  lemma EmbedListAsWrittenAgrees(entries: seq<Entry<GameInfo>>)
    ensures GameListAsWritten(entries, false) == GameList(entries, false)
  {
    assert LinesAsWritten(entries, false) == Lines(entries, false);
  }

  /** The table of a single game in the fallback form. As written it is
      the same text whatever the game, so it names no game; corrected, it
      is the header and the game's line, which names the bot. */
  lemma FallbackSingleGame(e: Entry<GameInfo>)
    ensures GameListAsWritten([e], true) == ListHeaderFallback + "| "
    ensures GameList([e], true) == ListHeaderFallback + Line(e, |e.key|, true)
    ensures Contains(GameList([e], true), e.key)
  {
    var l := Line(e, |e.key|, true);
    SingleGameLines(e);
    AssembleFallback(["| "]);
    AssembleFallback([l]);
    LineName(e, |e.key|, true);
    assert OccursAt(l, e.key, 2);
    OccursInContext(ListHeaderFallback, l, "", e.key, 2);
    assert ListHeaderFallback + l + "" == ListHeaderFallback + l;
  }

  lemma SingleGameLines(e: Entry<GameInfo>)
    ensures Lines([e], true) == [Line(e, |e.key|, true)]
    ensures LinesAsWritten([e], true) == ["| "]
  {
    assert Longest([e]) == |e.key|;
  }

  /** A fallback table of one line is the fallback header, then that line. */
  lemma AssembleFallback(lines: seq<string>)
    requires |lines| == 1
    ensures Assemble(true, lines) == ListHeaderFallback + lines[0]
  {
    assert Concat(lines) == Concat([]) + lines[0];
    assert |ListHeaderFallback + lines[0]| > 0;
  }
}

=== FILE: strings.dfy ===
/** String helpers used by the table renderer and by the ordered game map. */
module Strings {

  /** Lexicographic order on strings, character by character; a proper prefix
      comes first. This is the order `String.compareTo` gives a TreeMap. */
  predicate Less(a: string, b: string)
    decreases |a|
  {
    if |a| == 0 then |b| > 0
    else if |b| == 0 then false
    else if a[0] != b[0] then a[0] < b[0]
    else Less(a[1..], b[1..])
  }

  lemma {:induction false} LessIrreflexive(a: string)
    ensures !Less(a, a)
    decreases |a|
  {
    if |a| > 0 {
      LessIrreflexive(a[1..]);
    }
  }

  lemma {:induction false} LessAsymmetric(a: string, b: string)
    requires Less(a, b)
    ensures !Less(b, a)
    decreases |a|
  {
    if |a| > 0 && |b| > 0 && a[0] == b[0] {
      LessAsymmetric(a[1..], b[1..]);
    }
  }

  lemma {:induction false} LessTransitive(a: string, b: string, c: string)
    requires Less(a, b) && Less(b, c)
    ensures Less(a, c)
    decreases |a|
  {
    if |a| > 0 && |b| > 0 && |c| > 0 && a[0] == b[0] && b[0] == c[0] {
      LessTransitive(a[1..], b[1..], c[1..]);
    }
  }

  /** Any two distinct strings are ordered one way or the other. */
  lemma {:induction false} LessTotal(a: string, b: string)
    ensures a == b || Less(a, b) || Less(b, a)
    decreases |a|
  {
    if |a| > 0 && |b| > 0 && a[0] == b[0] {
      LessTotal(a[1..], b[1..]);
      if a[1..] == b[1..] {
        assert a == [a[0]] + a[1..] && b == [b[0]] + b[1..];
      }
    }
  }

  /** `" ".repeat(n)` */
  function Spaces(n: nat): (r: string)
    ensures |r| == n
    ensures forall i :: 0 <= i < n ==> r[i] == ' '
  {
    if n == 0 then "" else " " + Spaces(n - 1)
  }

  /** `s + " ".repeat(width - s.length)`: `s` right-padded to `width` columns. */
  function PadRight(s: string, width: nat): (r: string)
    requires |s| <= width
    ensures |r| == width
    ensures r[..|s|] == s
    ensures forall i :: |s| <= i < width ==> r[i] == ' '
  {
    s + Spaces(width - |s|)
  }

  /** The concatenation of `parts`, first to last (repeated `message += part`). */
  function Concat(parts: seq<string>): string
  {
    if |parts| == 0 then "" else Concat(parts[..|parts| - 1]) + parts[|parts| - 1]
  }

  /** `parts.reduce { acc, s -> acc + sep + s }`; `reduce` throws on an empty
      list, hence the precondition. */
  function Join(parts: seq<string>, sep: string): string
    requires |parts| > 0
  {
    if |parts| == 1 then parts[0]
    else Join(parts[..|parts| - 1], sep) + sep + parts[|parts| - 1]
  }

  /** Where `parts[i]` starts inside `Join(parts, sep)`. */
  function JoinOffset(parts: seq<string>, sep: string, i: nat): nat
    requires i <= |parts|
  {
    if i == 0 then 0 else JoinOffset(parts, sep, i - 1) + |parts[i - 1]| + |sep|
  }

  lemma SliceOfLeft(a: string, b: string, x: int, y: int)
    requires 0 <= x <= y <= |a|
    ensures (a + b)[x..y] == a[x..y]
  {
    assert forall k :: x <= k < y ==> (a + b)[k] == a[k];
  }

  lemma SliceOfRight(a: string, b: string, x: int, y: int)
    requires 0 <= x <= y <= |b|
    ensures (a + b)[|a| + x..|a| + y] == b[x..y]
  {
    assert forall k :: |a| + x <= k < |a| + y ==> (a + b)[k] == b[k - |a|];
  }

  /** Every part occurs in the joined string at its offset. */
  lemma {:induction false} JoinPartAt(parts: seq<string>, sep: string, i: nat)
    requires 0 <= i < |parts|
    ensures JoinOffset(parts, sep, i) + |parts[i]| <= |Join(parts, sep)|
    ensures Join(parts, sep)[JoinOffset(parts, sep, i)..JoinOffset(parts, sep, i) + |parts[i]|] == parts[i]
    decreases |parts|
  {
    if |parts| > 1 {
      var init := parts[..|parts| - 1];
      var last := parts[|parts| - 1];
      var j' := Join(init, sep);
      assert Join(parts, sep) == (j' + sep) + last;
      JoinLength(init, sep);
      if i < |init| {
        JoinPartAt(init, sep, i);
        JoinOffsetPrefix(parts, init, sep, i);
        assert parts[i] == init[i];
        var o := JoinOffset(parts, sep, i);
        SliceOfLeft(j', sep + last, o, o + |parts[i]|);
        assert (j' + sep) + last == j' + (sep + last);
      } else {
        JoinOffsetPrefix(parts, init, sep, |init| - 1);
        assert JoinOffset(parts, sep, i) == |j' + sep|;
        SliceOfRight(j' + sep, last, 0, |last|);
        assert last[0..|last|] == last;
      }
    }
  }

  /** Consecutive parts are separated by exactly one `sep`. */
  lemma {:induction false} JoinSepAt(parts: seq<string>, sep: string, i: nat)
    requires i + 1 < |parts|
    ensures JoinOffset(parts, sep, i + 1) <= |Join(parts, sep)|
    ensures Join(parts, sep)[JoinOffset(parts, sep, i) + |parts[i]|..JoinOffset(parts, sep, i + 1)] == sep
    decreases |parts|
  {
    var init := parts[..|parts| - 1];
    var last := parts[|parts| - 1];
    var j' := Join(init, sep);
    assert Join(parts, sep) == j' + (sep + last);
    JoinLength(init, sep);
    var o := JoinOffset(parts, sep, i) + |parts[i]|;
    if i + 1 < |init| {
      JoinSepAt(init, sep, i);
      JoinOffsetPrefix(parts, init, sep, i);
      JoinOffsetPrefix(parts, init, sep, i + 1);
      assert parts[i] == init[i];
      SliceOfLeft(j', sep + last, o, JoinOffset(parts, sep, i + 1));
    } else {
      JoinOffsetPrefix(parts, init, sep, i);
      assert parts[i] == init[i];
      assert o == |j'|;
      SliceOfRight(j', sep + last, 0, |sep|);
      assert (sep + last)[0..|sep|] == sep;
    }
  }

  /** Every part occurs in the joined string at its offset, and consecutive
      parts are separated by exactly one `sep`. */
  lemma JoinContainsParts(parts: seq<string>, sep: string, i: nat)
    requires 0 <= i < |parts|
    ensures JoinOffset(parts, sep, i) + |parts[i]| + (if i + 1 < |parts| then |sep| else 0) <= |Join(parts, sep)|
    ensures Join(parts, sep)[JoinOffset(parts, sep, i)..JoinOffset(parts, sep, i) + |parts[i]|] == parts[i]
    ensures i + 1 < |parts| ==>
      Join(parts, sep)[JoinOffset(parts, sep, i) + |parts[i]|..JoinOffset(parts, sep, i + 1)] == sep
  {
    JoinPartAt(parts, sep, i);
    if i + 1 < |parts| {
      JoinSepAt(parts, sep, i);
    }
  }

  /** The joined string is exactly as long as the parts plus the separators. */
  lemma {:induction false} JoinLength(parts: seq<string>, sep: string)
    requires |parts| > 0
    ensures |Join(parts, sep)| == JoinOffset(parts, sep, |parts| - 1) + |parts[|parts| - 1]|
    decreases |parts|
  {
    if |parts| > 1 {
      var init := parts[..|parts| - 1];
      JoinLength(init, sep);
      JoinOffsetPrefix(parts, init, sep, |init| - 1);
    }
  }

  /** Offsets of a sequence and of any of its prefixes agree. */
  lemma {:induction false} JoinOffsetPrefix(parts: seq<string>, init: seq<string>, sep: string, i: nat)
    requires init <= parts && i <= |init|
    ensures JoinOffset(parts, sep, i) == JoinOffset(init, sep, i)
    decreases i
  {
    if i > 0 {
      JoinOffsetPrefix(parts, init, sep, i - 1);
    }
  }

  /** `needle` occurs in `hay` starting at offset `o`. */
  predicate OccursAt(hay: string, needle: string, o: int)
  {
    0 <= o <= |hay| - |needle| && hay[o..o + |needle|] == needle
  }

  ghost predicate Contains(hay: string, needle: string)
  {
    exists o :: OccursAt(hay, needle, o)
  }

  /** An occurrence survives surrounding the string with more text. */
  lemma OccursInContext(pre: string, mid: string, post: string, needle: string, o: int)
    requires OccursAt(mid, needle, o)
    ensures OccursAt(pre + mid + post, needle, |pre| + o)
  {
    var h := pre + mid + post;
    assert forall k :: |pre| + o <= k < |pre| + o + |needle| ==> h[k] == mid[k - |pre|];
    assert h[|pre| + o..|pre| + o + |needle|] == needle;
  }
}

=== FILE: treemap.dfy ===
/** An ordered map from strings, as a sorted association list: the model of
    the `TreeMap<String, _>` that keeps a channel's watched games in bot-name
    order. */
module TreeMap {
  import opened Common
  import opened Strings

  datatype Entry<V> = Entry(key: string, value: V)

  /** Keys strictly ascending, hence also unique. */
  ghost predicate Sorted<V>(s: seq<Entry<V>>)
  {
    forall i, j :: 0 <= i < j < |s| ==> Less(s[i].key, s[j].key)
  }

  function Keys<V>(s: seq<Entry<V>>): set<string>
  {
    set i | 0 <= i < |s| :: s[i].key
  }

  /** `map[key]`: the value of the first entry with this key. */
  function Get<V>(s: seq<Entry<V>>, key: string): (r: Option<V>)
    ensures r.Some? <==> key in Keys(s)
  {
    if |s| == 0 then None
    else if s[0].key == key then Some(s[0].value)
    else Get(s[1..], key)
  }

  lemma KeysCons<V>(e: Entry<V>, s: seq<Entry<V>>)
    ensures Keys([e] + s) == {e.key} + Keys(s)
  {
    var r := [e] + s;
    assert r[0].key == e.key;
    forall k | k in Keys(r) ensures k in {e.key} + Keys(s) {
      var i :| 0 <= i < |r| && r[i].key == k;
      if i > 0 { assert s[i - 1].key == k; }
    }
    forall k | k in Keys(s) ensures k in Keys(r) {
      var i :| 0 <= i < |s| && s[i].key == k;
      assert r[i + 1].key == k;
    }
  }

  /** In a sorted list every key sits below the keys after it. */
  lemma HeadBelowTail<V>(s: seq<Entry<V>>)
    requires Sorted(s) && |s| > 0
    ensures forall k :: k in Keys(s[1..]) ==> Less(s[0].key, k)
  {
    forall k | k in Keys(s[1..])
      ensures Less(s[0].key, k)
    {
      var j :| 0 <= j < |s[1..]| && s[1..][j].key == k;
      assert s[j + 1].key == k;
    }
  }

  /** An entry that sits below every key of a sorted list may be put in front. */
  lemma ConsSorted<V>(e: Entry<V>, s: seq<Entry<V>>)
    requires Sorted(s)
    requires forall k :: k in Keys(s) ==> Less(e.key, k)
    ensures Sorted([e] + s)
  {
    var r := [e] + s;
    forall i, j | 0 <= i < j < |r|
      ensures Less(r[i].key, r[j].key)
    {
      if i == 0 {
        assert r[j] == s[j - 1];
        assert r[j].key in Keys(s);
      }
    }
  }

  /** `map[key] = value`: afterwards `key` maps to `value`, the list is still
      sorted, and every other key keeps its value. */
  function Put<V>(s: seq<Entry<V>>, key: string, value: V): (r: seq<Entry<V>>)
    requires Sorted(s)
    ensures Sorted(r)
    ensures Keys(r) == Keys(s) + {key}
    ensures Get(r, key) == Some(value)
    ensures forall k :: k != key ==> Get(r, k) == Get(s, k)
  {
    if |s| == 0 then
      var r := [Entry(key, value)];
      assert r[0].key == key;
      assert Keys(r) == {key};
      r
    else if s[0].key == key then
      HeadBelowTail(s);
      ConsSorted(Entry(key, value), s[1..]);
      KeysCons(Entry(key, value), s[1..]);
      KeysCons(s[0], s[1..]);
      assert s == [s[0]] + s[1..];
      [Entry(key, value)] + s[1..]
    else if Less(key, s[0].key) then
      HeadBelowTail(s);
      forall k | k in Keys(s) ensures Less(key, k) {
        if k != s[0].key {
          assert k in Keys(s[1..]);
          LessTransitive(key, s[0].key, k);
        }
      }
      ConsSorted(Entry(key, value), s);
      KeysCons(Entry(key, value), s);
      [Entry(key, value)] + s
    else
      HeadBelowTail(s);
      LessTotal(key, s[0].key);
      var rest := Put(s[1..], key, value);
      ConsSorted(s[0], rest);
      KeysCons(s[0], rest);
      KeysCons(s[0], s[1..]);
      assert s == [s[0]] + s[1..];
      [s[0]] + rest
  }

  /** `map.remove(key)`: afterwards `key` is absent, the list is still sorted,
      and every other key keeps its value. Absent keys are harmless. */
  function Remove<V>(s: seq<Entry<V>>, key: string): (r: seq<Entry<V>>)
    requires Sorted(s)
    ensures Sorted(r)
    ensures Keys(r) == Keys(s) - {key}
    ensures Get(r, key) == None
    ensures forall k :: k != key ==> Get(r, k) == Get(s, k)
  {
    if |s| == 0 then
      []
    else if s[0].key == key then
      HeadBelowTail(s);
      forall k | k in Keys(s[1..]) ensures k != key {
        LessIrreflexive(key);
      }
      KeysCons(s[0], s[1..]);
      assert s == [s[0]] + s[1..];
      s[1..]
    else
      HeadBelowTail(s);
      var rest := Remove(s[1..], key);
      ConsSorted(s[0], rest);
      KeysCons(s[0], rest);
      KeysCons(s[0], s[1..]);
      assert s == [s[0]] + s[1..];
      [s[0]] + rest
  }

  /** In a sorted list, looking up an entry's key finds that entry. */
  lemma {:induction false} GetAt<V>(s: seq<Entry<V>>, i: nat)
    requires Sorted(s) && i < |s|
    ensures Get(s, s[i].key) == Some(s[i].value)
    decreases i
  {
    if i > 0 {
      if s[0].key == s[i].key {
        LessIrreflexive(s[0].key);
        assert false;
      }
      assert s[1..][i - 1] == s[i];
      GetAt(s[1..], i - 1);
    }
  }

  /** A value found under a key comes from an entry with that key. */
  lemma {:induction false} GetFrom<V>(s: seq<Entry<V>>, key: string)
    requires Get(s, key).Some?
    ensures exists i :: 0 <= i < |s| && s[i].key == key && s[i].value == Get(s, key).value
    decreases |s|
  {
    if s[0].key != key {
      GetFrom(s[1..], key);
      var i :| 0 <= i < |s[1..]| && s[1..][i].key == key && s[1..][i].value == Get(s[1..], key).value;
      assert s[i + 1] == s[1..][i];
    }
  }
}

=== FILE: watcher.dfy ===
/** The watcher: one poll of the game list diffed against the registry of
    tracked games, keyed by bot account name. A poll is a step
    `(registry, idCounter, rows) -> (registry', idCounter', events)`. */
module Watcher {
  import opened Common
  import opened Extraction
  import opened GameTypes

  /** What is known about the game hosted on one bot account. `name` is the
      game title and `playerCount` the table's in-game counter; `oldName`
      and `oldPlayerCount` keep the values before the last update. */
  datatype GameInfo = GameInfo(
    id: nat,
    name: string,
    oldName: string,
    gameType: GameType,
    botName: string,
    playerCount: string,
    oldPlayerCount: string)

  /** The callbacks the watcher fires: `onGameHosted`, `onGameUpdated`,
      `onGameRemoved`. */
  datatype Event = Hosted(info: GameInfo) | Updated(info: GameInfo) | Removed(info: GameInfo)

  datatype State = State(registry: map<string, GameInfo>, idCounter: nat)

  /** Every entry is filed under its own bot name, got its id from an
      earlier value of the counter, and no two entries share an id. */
  ghost predicate Valid(st: State)
  {
    && (forall k :: k in st.registry ==> st.registry[k].botName == k && st.registry[k].id < st.idCounter)
    && (forall k1, k2 :: k1 in st.registry && k2 in st.registry && k1 != k2 ==>
          st.registry[k1].id != st.registry[k2].id)
  }

  /** The registry a watcher starts with. */
  function Initial(): (st: State)
    ensures Valid(st) && st.registry == map[]
  {
    State(map[], 0)
  }

  /** A row together with the type it was classified as. */
  datatype Classified = Classified(row: GameRow, gameType: GameType)

  /** The bots whose rows are watched: some row of theirs classifies. */
  function WatchedBots(p: Patterns, rows: seq<GameRow>): set<string>
  {
    set i | 0 <= i < |rows| && ShouldWatch(p, rows[i].currentGame).Some? :: rows[i].botName
  }

  function BotNames(cs: seq<Classified>): set<string>
  {
    set i | 0 <= i < |cs| :: cs[i].row.botName
  }

  lemma BotNamesCons(cs: seq<Classified>)
    requires |cs| > 0
    ensures BotNames(cs) == {cs[0].row.botName} + BotNames(cs[1..])
  {
    forall b | b in BotNames(cs) ensures b in {cs[0].row.botName} + BotNames(cs[1..]) {
      var i :| 0 <= i < |cs| && cs[i].row.botName == b;
      if i > 0 { assert cs[1..][i - 1] == cs[i]; }
    }
    forall b | b in BotNames(cs[1..]) ensures b in BotNames(cs) {
      var i :| 0 <= i < |cs[1..]| && cs[1..][i].row.botName == b;
      assert cs[i + 1].row.botName == b;
    }
  }

  /** `rows.map { Pair(it, shouldWatch(it)) }.filter { it.second != null }`:
      exactly the rows that classify, each with its type, in order. */
  function Classify(p: Patterns, rows: seq<GameRow>): (r: seq<Classified>)
    ensures forall i :: 0 <= i < |r| ==>
      r[i].row in rows && ShouldWatch(p, r[i].row.currentGame) == Some(r[i].gameType)
    ensures forall i :: 0 <= i < |rows| && ShouldWatch(p, rows[i].currentGame).Some? ==>
      Classified(rows[i], ShouldWatch(p, rows[i].currentGame).value) in r
  {
    if |rows| == 0 then []
    else
      var rest := Classify(p, rows[1..]);
      assert forall i :: 1 <= i < |rows| ==> rows[1..][i - 1] == rows[i];
      match ShouldWatch(p, rows[0].currentGame)
      case None => rest
      case Some(t) => [Classified(rows[0], t)] + rest
  }

  /** A single row classifies to itself with its type, or to nothing. */
  lemma ClassifyOne(p: Patterns, row: GameRow)
    ensures ShouldWatch(p, row.currentGame).Some? ==>
      Classify(p, [row]) == [Classified(row, ShouldWatch(p, row.currentGame).value)]
    ensures ShouldWatch(p, row.currentGame).None? ==> Classify(p, [row]) == []
  {
    assert [row][1..] == [];
  }

  /** Classifying keeps the rows' order and takes each row once: it
      distributes over concatenation, so with `ClassifyOne` it is the
      order-preserving filter of the rows that classify. */
  lemma {:induction false} ClassifyAppend(p: Patterns, a: seq<GameRow>, b: seq<GameRow>)
    ensures Classify(p, a + b) == Classify(p, a) + Classify(p, b)
    decreases |a|
  {
    if |a| == 0 {
      assert a + b == b;
    } else {
      assert (a + b)[0] == a[0];
      assert (a + b)[1..] == a[1..] + b;
      ClassifyAppend(p, a[1..], b);
    }
  }

  lemma WatchedBotsCons(p: Patterns, rows: seq<GameRow>)
    requires |rows| > 0
    ensures WatchedBots(p, rows) == WatchedBots(p, rows[1..]) +
      (if ShouldWatch(p, rows[0].currentGame).Some? then {rows[0].botName} else {})
  {
    forall b | b in WatchedBots(p, rows)
      ensures b in WatchedBots(p, rows[1..]) || (ShouldWatch(p, rows[0].currentGame).Some? && b == rows[0].botName)
    {
      var i :| 0 <= i < |rows| && ShouldWatch(p, rows[i].currentGame).Some? && rows[i].botName == b;
      if i > 0 { assert rows[1..][i - 1] == rows[i]; }
    }
    forall b | b in WatchedBots(p, rows[1..]) ensures b in WatchedBots(p, rows) {
      var i :| 0 <= i < |rows[1..]| && ShouldWatch(p, rows[1..][i].currentGame).Some? && rows[1..][i].botName == b;
      assert rows[i + 1] == rows[1..][i];
    }
  }

  /** The bots of the classified rows are the watched bots. */
  lemma {:induction false} ClassifyBotNames(p: Patterns, rows: seq<GameRow>)
    ensures BotNames(Classify(p, rows)) == WatchedBots(p, rows)
    decreases |rows|
  {
    if |rows| == 0 {
      assert BotNames(Classify(p, rows)) == {};
    } else {
      ClassifyBotNames(p, rows[1..]);
      WatchedBotsCons(p, rows);
      var r := Classify(p, rows);
      var rest := Classify(p, rows[1..]);
      if ShouldWatch(p, rows[0].currentGame).Some? {
        assert r == [Classified(rows[0], ShouldWatch(p, rows[0].currentGame).value)] + rest;
        BotNamesCons(r);
        assert r[1..] == rest;
      } else {
        assert r == rest;
      }
    }
  }

  /** The record of a game first seen in `row`, given the id `id`. */
  function NewInfo(row: GameRow, t: GameType, id: nat): GameInfo
  {
    GameInfo(id, row.currentGame, "", t, row.botName, row.ingameCounter, "")
  }

  /** The scan's working state: the registry being rewritten, the counter,
      the bots seen so far this poll (the `updated` flags), and the events
      fired so far. */
  datatype Phase = Phase(registry: map<string, GameInfo>, idCounter: nat, seen: set<string>, events: seq<Event>)

  ghost predicate PhaseValid(ph: Phase)
  {
    Valid(State(ph.registry, ph.idCounter))
  }

  /** The new hosted events carry ids from `[lo, hi)`, increasing in the
      order the events fire, so no two share an id. */
  ghost predicate FreshIds(evs: seq<Event>, lo: nat, hi: nat)
  {
    && (forall i :: 0 <= i < |evs| && evs[i].Hosted? ==> lo <= evs[i].info.id < hi)
    && (forall i, j :: 0 <= i < j < |evs| && evs[i].Hosted? && evs[j].Hosted? ==>
          evs[i].info.id < evs[j].info.id)
  }

  lemma FreshIdsConcat(a: seq<Event>, b: seq<Event>, lo: nat, mid: nat, hi: nat)
    requires lo <= mid <= hi
    requires FreshIds(a, lo, mid) && FreshIds(b, mid, hi)
    ensures FreshIds(a + b, lo, hi)
  {
    var ab := a + b;
    forall i, j | 0 <= i < j < |ab| && ab[i].Hosted? && ab[j].Hosted?
      ensures ab[i].info.id < ab[j].info.id
    {
      if j >= |a| && i < |a| {
        assert ab[j] == b[j - |a|];
      } else if i >= |a| {
        assert ab[i] == b[i - |a|] && ab[j] == b[j - |a|];
      }
    }
    forall i | 0 <= i < |ab| && ab[i].Hosted? ensures lo <= ab[i].info.id < hi {
      if i >= |a| { assert ab[i] == b[i - |a|]; }
    }
  }

  /** The entry `info` holds what the classified row `c` says. */
  ghost predicate Describes(info: GameInfo, c: Classified)
  {
    info.gameType == c.gameType && info.name == c.row.currentGame && info.playerCount == c.row.ingameCounter
  }

  /** The loop body of `scan` for one classified row. */
  function ApplyRow(ph: Phase, c: Classified): (r: Phase)
    ensures r.seen == ph.seen + {c.row.botName}
    ensures r.registry.Keys == ph.registry.Keys + {c.row.botName}
    ensures forall k :: k in ph.registry && k != c.row.botName ==> r.registry[k] == ph.registry[k]
    ensures |r.events| >= |ph.events| && r.events[..|ph.events|] == ph.events
    ensures Describes(r.registry[c.row.botName], c)
    // a bot not tracked yet: one hosted event, a fresh id
    ensures c.row.botName !in ph.registry ==>
      && r.idCounter == ph.idCounter + 1
      && r.registry[c.row.botName] == NewInfo(c.row, c.gameType, ph.idCounter)
      && r.events == ph.events + [Hosted(r.registry[c.row.botName])]
    // same type, changed title or count: the old values move to oldName and
    // oldPlayerCount and exactly one update fires
    ensures c.row.botName in ph.registry ==>
      var prev := ph.registry[c.row.botName];
      prev.gameType == c.gameType && (prev.name != c.row.currentGame || prev.playerCount != c.row.ingameCounter) ==>
        && r.idCounter == ph.idCounter
        && r.registry[c.row.botName] == prev.(oldName := prev.name, oldPlayerCount := prev.playerCount,
                                             name := c.row.currentGame, playerCount := c.row.ingameCounter)
        && r.events == ph.events + [Updated(r.registry[c.row.botName])]
    // same type, nothing changed: no event, nothing but the seen mark changes
    ensures c.row.botName in ph.registry ==>
      var prev := ph.registry[c.row.botName];
      prev.gameType == c.gameType && prev.name == c.row.currentGame && prev.playerCount == c.row.ingameCounter ==>
        r == ph.(seen := ph.seen + {c.row.botName})
    // a different type: the old game is removed, then a fresh one hosted
    ensures c.row.botName in ph.registry ==>
      var prev := ph.registry[c.row.botName];
      prev.gameType != c.gameType ==>
        && r.idCounter == ph.idCounter + 1
        && r.registry[c.row.botName] == NewInfo(c.row, c.gameType, ph.idCounter)
        && r.events == ph.events + [Removed(prev), Hosted(r.registry[c.row.botName])]
  {
    var b := c.row.botName;
    var newInfo := NewInfo(c.row, c.gameType, ph.idCounter);
    if b in ph.registry then
      var info := ph.registry[b];
      if info.gameType == c.gameType then
        if info.name != c.row.currentGame || info.playerCount != c.row.ingameCounter then
          var info' := info.(oldName := info.name, oldPlayerCount := info.playerCount,
                             name := c.row.currentGame, playerCount := c.row.ingameCounter);
          Phase(ph.registry[b := info'], ph.idCounter, ph.seen + {b}, ph.events + [Updated(info')])
        else
          Phase(ph.registry, ph.idCounter, ph.seen + {b}, ph.events)
      else
        Phase(ph.registry[b := newInfo], ph.idCounter + 1, ph.seen + {b}, ph.events + [Removed(info), Hosted(newInfo)])
    else
      Phase(ph.registry[b := newInfo], ph.idCounter + 1, ph.seen + {b}, ph.events + [Hosted(newInfo)])
  }

  /** One row hosts at most one game, under the current counter value. */
  lemma ApplyRowIds(ph: Phase, c: Classified)
    ensures ph.idCounter <= ApplyRow(ph, c).idCounter
    ensures FreshIds(ApplyRow(ph, c).events[|ph.events|..], ph.idCounter, ApplyRow(ph, c).idCounter)
  {
    var r := ApplyRow(ph, c);
    var seg := r.events[|ph.events|..];
    assert |seg| <= 2;
  }

  /** One row keeps the registry valid and fires events only about its bot. */
  lemma ApplyRowValid(ph: Phase, c: Classified)
    requires PhaseValid(ph)
    ensures PhaseValid(ApplyRow(ph, c))
    ensures forall i :: |ph.events| <= i < |ApplyRow(ph, c).events| ==>
      ApplyRow(ph, c).events[i].info.botName == c.row.botName
  {
    var b := c.row.botName;
    var r := ApplyRow(ph, c);
    var st := State(ph.registry, ph.idCounter);
    if b in ph.registry && ph.registry[b].gameType == c.gameType {
      if r.registry != ph.registry {
        ValidPut(st, b, r.registry[b], ph.idCounter);
        assert r.events[|ph.events|..] == [Updated(r.registry[b])];
      }
    } else {
      ValidPut(st, b, r.registry[b], ph.idCounter + 1);
    }
    forall i | |ph.events| <= i < |r.events| ensures r.events[i].info.botName == b {
      assert r.events[i] == r.events[|ph.events|..][i - |ph.events|];
    }
  }

  /** Filing an entry under its own bot name, with an id no other entry
      holds and below the new counter, keeps the registry valid. */
  lemma ValidPut(st: State, b: string, info: GameInfo, counter: nat)
    requires Valid(st) && info.botName == b && st.idCounter <= counter && info.id < counter
    requires forall k :: k in st.registry && k != b ==> st.registry[k].id != info.id
    ensures Valid(State(st.registry[b := info], counter))
  {
  }

  /** The row loop of `scan`: every classified row applied in order. */
  function RowPhase(ph: Phase, cs: seq<Classified>): (r: Phase)
    ensures r.seen == ph.seen + BotNames(cs)
    ensures r.registry.Keys == ph.registry.Keys + BotNames(cs)
    decreases |cs|
  {
    if |cs| == 0 then
      assert BotNames(cs) == {};
      ph
    else
      BotNamesCons(cs);
      RowPhase(ApplyRow(ph, cs[0]), cs[1..])
  }

  /** Entries of bots without a row this poll are left alone by the row loop. */
  lemma {:induction false} RowPhaseKeepsOthers(ph: Phase, cs: seq<Classified>)
    ensures forall k :: k in ph.registry && k !in BotNames(cs) ==> RowPhase(ph, cs).registry[k] == ph.registry[k]
    decreases |cs|
  {
    if |cs| > 0 {
      BotNamesCons(cs);
      RowPhaseKeepsOthers(ApplyRow(ph, cs[0]), cs[1..]);
    }
  }

  /** The row `i` is the last of `cs` for its bot. */
  predicate LastRowOf(cs: seq<Classified>, i: int)
    requires 0 <= i < |cs|
  {
    forall j :: i < j < |cs| ==> cs[j].row.botName != cs[i].row.botName
  }

  /** After the row loop the entry of every bot with a row describes the
      last of its rows: a later row for the same bot overrides an earlier. */
  lemma {:induction false} RowPhaseDescribes(ph: Phase, cs: seq<Classified>)
    ensures forall k :: k in BotNames(cs) ==>
      exists i :: (0 <= i < |cs| && cs[i].row.botName == k && LastRowOf(cs, i)
        && Describes(RowPhase(ph, cs).registry[k], cs[i]))
    decreases |cs|
  {
    if |cs| > 0 {
      var ph1 := ApplyRow(ph, cs[0]);
      var r := RowPhase(ph, cs);
      var tl := cs[1..];
      BotNamesCons(cs);
      RowPhaseDescribes(ph1, tl);
      RowPhaseKeepsOthers(ph1, tl);
      forall k | k in BotNames(cs)
        ensures exists i :: (0 <= i < |cs| && cs[i].row.botName == k && LastRowOf(cs, i)
          && Describes(r.registry[k], cs[i]))
      {
        if k in BotNames(tl) {
          var i :| 0 <= i < |tl| && tl[i].row.botName == k && LastRowOf(tl, i) && Describes(r.registry[k], tl[i]);
          assert cs[i + 1] == tl[i];
          forall j | i + 1 < j < |cs| ensures cs[j].row.botName != k {
            assert cs[j] == tl[j - 1];
          }
          assert LastRowOf(cs, i + 1);
        } else {
          assert k == cs[0].row.botName;
          forall j | 0 < j < |cs| ensures cs[j].row.botName != k {
            assert cs[j] == tl[j - 1];
          }
          assert LastRowOf(cs, 0);
        }
      }
    }
  }

  /** The row loop keeps the events fired before it and only raises the
      counter. */
  lemma {:induction false} RowPhasePrefix(ph: Phase, cs: seq<Classified>)
    ensures ph.idCounter <= RowPhase(ph, cs).idCounter
    ensures |RowPhase(ph, cs).events| >= |ph.events|
    ensures RowPhase(ph, cs).events[..|ph.events|] == ph.events
    decreases |cs|
  {
    if |cs| > 0 {
      var ph1 := ApplyRow(ph, cs[0]);
      RowPhasePrefix(ph1, cs[1..]);
    }
  }

  /** The row loop hosts new games under fresh ids, increasing in the order
      of the events. */
  lemma {:induction false} RowPhaseIds(ph: Phase, cs: seq<Classified>)
    ensures ph.idCounter <= RowPhase(ph, cs).idCounter
    ensures |RowPhase(ph, cs).events| >= |ph.events|
    ensures FreshIds(RowPhase(ph, cs).events[|ph.events|..], ph.idCounter, RowPhase(ph, cs).idCounter)
    decreases |cs|
  {
    if |cs| > 0 {
      var ph1 := ApplyRow(ph, cs[0]);
      var r := RowPhase(ph1, cs[1..]);
      assert RowPhase(ph, cs) == r;
      ApplyRowIds(ph, cs[0]);
      RowPhaseIds(ph1, cs[1..]);
      RowPhasePrefix(ph1, cs[1..]);
      FreshIdsChain(ph.events, ph1.events, r.events, ph.idCounter, ph1.idCounter, r.idCounter);
    } else {
      assert RowPhase(ph, cs).events[|ph.events|..] == [];
    }
  }

  /** Fresh ids of two successive stretches of an event log join up. */
  lemma FreshIdsChain(e0: seq<Event>, e1: seq<Event>, e2: seq<Event>, lo: nat, mid: nat, hi: nat)
    requires |e0| <= |e1| <= |e2| && e1[..|e0|] == e0 && e2[..|e1|] == e1
    requires lo <= mid <= hi
    requires FreshIds(e1[|e0|..], lo, mid) && FreshIds(e2[|e1|..], mid, hi)
    ensures FreshIds(e2[|e0|..], lo, hi)
  {
    var a := e1[|e0|..];
    var b := e2[|e1|..];
    assert e2[|e0|..] == a + b by {
      assert e2 == e1 + b;
      assert e1 == e0 + a;
    }
    FreshIdsConcat(a, b, lo, mid, hi);
  }

  /** The row loop keeps the registry valid and fires events only about
      bots that have a row. */
  lemma {:induction false} RowPhaseValid(ph: Phase, cs: seq<Classified>)
    requires PhaseValid(ph)
    ensures PhaseValid(RowPhase(ph, cs))
    ensures forall i :: |ph.events| <= i < |RowPhase(ph, cs).events| ==>
      RowPhase(ph, cs).events[i].info.botName in BotNames(cs)
    decreases |cs|
  {
    if |cs| > 0 {
      var ph1 := ApplyRow(ph, cs[0]);
      var r := RowPhase(ph, cs);
      BotNamesCons(cs);
      ApplyRowValid(ph, cs[0]);
      RowPhaseValid(ph1, cs[1..]);
      RowPhasePrefix(ph1, cs[1..]);
      forall i | |ph.events| <= i < |r.events| ensures r.events[i].info.botName in BotNames(cs) {
        if i < |ph1.events| {
          assert r.events[i] == ph1.events[i];
        }
      }
    }
  }

  /** The sweep's events remove exactly the entries of `reg` whose bots were
      not seen, each once; `order` lists their keys in the map's iteration
      order, which the model leaves open. */
  ghost predicate IsSweep(sweep: seq<Event>, order: seq<string>, reg: map<string, GameInfo>, seen: set<string>)
  {
    && |order| == |sweep|
    && (forall i :: 0 <= i < |order| ==>
          order[i] in reg && order[i] !in seen && sweep[i] == Removed(reg[order[i]]))
    && (forall i, j :: 0 <= i < j < |order| ==> order[i] != order[j])
    && (forall k :: k in reg && k !in seen ==> k in order)
  }

  /** The final loop of `scan`: every entry whose bot was not seen this poll
      is removed, with a removed event, in the map's iteration order. */
  method Sweep(reg: map<string, GameInfo>, seen: set<string>)
    returns (reg': map<string, GameInfo>, sweep: seq<Event>, order: seq<string>)
    ensures reg'.Keys == reg.Keys * seen
    ensures forall k :: k in reg' ==> reg'[k] == reg[k]
    ensures IsSweep(sweep, order, reg, seen)
  {
    reg' := reg;
    sweep := [];
    order := [];
    var remaining := reg.Keys;
    while remaining != {}
      invariant remaining <= reg.Keys
      invariant forall k :: k in reg' <==> k in reg && (k in remaining || k in seen)
      invariant forall k :: k in reg' ==> reg'[k] == reg[k]
      invariant |order| == |sweep|
      invariant forall i :: 0 <= i < |order| ==>
        order[i] in reg && order[i] !in seen && order[i] !in remaining && sweep[i] == Removed(reg[order[i]])
      invariant forall i, j :: 0 <= i < j < |order| ==> order[i] != order[j]
      invariant forall k :: k in reg && k !in remaining && k !in seen ==> k in order
      decreases remaining
    {
      var k :| k in remaining;
      remaining := remaining - {k};
      if k !in seen {
        sweep := sweep + [Removed(reg[k])];
        order := order + [k];
        reg' := reg' - {k};
      }
    }
  }

  /** `scan`: one poll. `fetched` is what `extractRows` produced; any
      exception leaves the watcher untouched. On success, the registry ends
      up holding exactly the watched bots, vanished games are removed with an
      event, and new games get fresh, increasing ids. */
  method Scan(p: Patterns, st: State, fetched: Result<seq<GameRow>, Exception>)
    returns (st': State, events: seq<Event>)
    // a failed fetch changes nothing and fires nothing
    ensures fetched.Failure? ==> st' == st && events == []
    // on success: the row loop's events in row order, then the sweep's; the
    // registry is the row loop's, minus the bots not seen this poll
    ensures fetched.Success? ==>
      var ph := RowPhase(Start(st), Classify(p, fetched.value));
      && st'.idCounter == ph.idCounter
      && st'.registry == (map k | k in ph.registry && k in ph.seen :: ph.registry[k])
      && |ph.events| <= |events| && events[..|ph.events|] == ph.events
      && (exists order :: IsSweep(events[|ph.events|..], order, ph.registry, ph.seen))
    ensures fetched.Success? ==> st'.registry.Keys == WatchedBots(p, fetched.value)
    // entries of bots that disappeared are removed, each with its event
    ensures fetched.Success? ==>
      forall k :: k in st.registry && k !in WatchedBots(p, fetched.value) ==> Removed(st.registry[k]) in events
    // the entry of a watched bot describes one of its rows
    ensures fetched.Success? ==>
      forall k :: k in st'.registry ==>
        exists i :: 0 <= i < |fetched.value| && fetched.value[i].botName == k
          && st'.registry[k].name == fetched.value[i].currentGame
          && st'.registry[k].playerCount == fetched.value[i].ingameCounter
          && ShouldWatch(p, fetched.value[i].currentGame) == Some(st'.registry[k].gameType)
    // ids: the counter only grows, and every hosted game gets a new id
    ensures st.idCounter <= st'.idCounter
    ensures FreshIds(events, st.idCounter, st'.idCounter)
    ensures Valid(st) ==> Valid(st')
    // no event about a bot that was neither tracked nor watched
    ensures Valid(st) && fetched.Success? ==>
      forall e :: e in events ==> e.info.botName in st.registry.Keys + WatchedBots(p, fetched.value)
  {
    if fetched.Failure? {
      return st, [];
    }
    var rows := fetched.value;
    var cs := Classify(p, rows);
    var ph := RowPhase(Start(st), cs);
    var reg, sweep, order := Sweep(ph.registry, ph.seen);
    st' := State(reg, ph.idCounter);
    events := ph.events + sweep;
    assert events[..|ph.events|] == ph.events && events[|ph.events|..] == sweep;
    assert IsSweep(events[|ph.events|..], order, ph.registry, ph.seen);
    SweptRegistry(ph, reg);
    ScanKeys(p, st, rows, reg);
    ScanRemoves(p, st, rows, reg, sweep, order);
    ScanDescribes(p, st, rows, reg);
    ScanIds(p, st, rows, sweep, order);
    if Valid(st) {
      ScanValid(p, st, rows, reg, sweep, order);
    }
  }

  /** The working state a poll starts from. */
  function Start(st: State): Phase
  {
    Phase(st.registry, st.idCounter, {}, [])
  }

  /** What the sweep promises about its results. */
  ghost predicate Swept(ph: Phase, reg: map<string, GameInfo>, sweep: seq<Event>, order: seq<string>)
  {
    && reg.Keys == ph.registry.Keys * ph.seen
    && (forall k :: k in reg ==> reg[k] == ph.registry[k])
    && IsSweep(sweep, order, ph.registry, ph.seen)
  }

  lemma ScanKeys(p: Patterns, st: State, rows: seq<GameRow>, reg: map<string, GameInfo>)
    requires reg.Keys == RowPhase(Start(st), Classify(p, rows)).registry.Keys * RowPhase(Start(st), Classify(p, rows)).seen
    ensures reg.Keys == WatchedBots(p, rows)
  {
    ClassifyBotNames(p, rows);
  }

  lemma ScanRemoves(p: Patterns, st: State, rows: seq<GameRow>, reg: map<string, GameInfo>, sweep: seq<Event>, order: seq<string>)
    requires Swept(RowPhase(Start(st), Classify(p, rows)), reg, sweep, order)
    ensures forall k :: k in st.registry && k !in WatchedBots(p, rows) ==>
      Removed(st.registry[k]) in RowPhase(Start(st), Classify(p, rows)).events + sweep
  {
    var cs := Classify(p, rows);
    var ph := RowPhase(Start(st), cs);
    ClassifyBotNames(p, rows);
    RowPhaseKeepsOthers(Start(st), cs);
    forall k | k in st.registry && k !in WatchedBots(p, rows)
      ensures Removed(st.registry[k]) in ph.events + sweep
    {
      var i :| 0 <= i < |order| && order[i] == k;
      assert sweep[i] == Removed(ph.registry[k]);
      assert (ph.events + sweep)[|ph.events| + i] == sweep[i];
    }
  }

  lemma ScanDescribes(p: Patterns, st: State, rows: seq<GameRow>, reg: map<string, GameInfo>)
    requires reg.Keys <= RowPhase(Start(st), Classify(p, rows)).seen
    requires forall k :: k in reg ==> reg[k] == RowPhase(Start(st), Classify(p, rows)).registry[k]
    ensures forall k :: k in reg ==>
      exists i :: (0 <= i < |rows| && rows[i].botName == k
        && reg[k].name == rows[i].currentGame
        && reg[k].playerCount == rows[i].ingameCounter
        && ShouldWatch(p, rows[i].currentGame) == Some(reg[k].gameType))
  {
    var cs := Classify(p, rows);
    var ph := RowPhase(Start(st), cs);
    RowPhaseDescribes(Start(st), cs);
    forall k | k in reg
      ensures exists i :: (0 <= i < |rows| && rows[i].botName == k
        && reg[k].name == rows[i].currentGame
        && reg[k].playerCount == rows[i].ingameCounter
        && ShouldWatch(p, rows[i].currentGame) == Some(reg[k].gameType))
    {
      var j :| 0 <= j < |cs| && cs[j].row.botName == k && LastRowOf(cs, j) && Describes(ph.registry[k], cs[j]);
      var c := cs[j];
      assert c.row in rows && ShouldWatch(p, c.row.currentGame) == Some(c.gameType);
      var i :| 0 <= i < |rows| && rows[i] == c.row;
      assert reg[k] == ph.registry[k];
      assert rows[i].botName == k && reg[k].name == rows[i].currentGame
        && reg[k].playerCount == rows[i].ingameCounter
        && ShouldWatch(p, rows[i].currentGame) == Some(reg[k].gameType);
    }
  }

  lemma ScanIds(p: Patterns, st: State, rows: seq<GameRow>, sweep: seq<Event>, order: seq<string>)
    requires IsSweep(sweep, order, RowPhase(Start(st), Classify(p, rows)).registry, RowPhase(Start(st), Classify(p, rows)).seen)
    ensures st.idCounter <= RowPhase(Start(st), Classify(p, rows)).idCounter
    ensures FreshIds(RowPhase(Start(st), Classify(p, rows)).events + sweep, st.idCounter, RowPhase(Start(st), Classify(p, rows)).idCounter)
  {
    var ph := RowPhase(Start(st), Classify(p, rows));
    RowPhaseIds(Start(st), Classify(p, rows));
    assert ph.events[|Start(st).events|..] == ph.events;
    SweepFresh(sweep, order, ph.registry, ph.seen, ph.idCounter);
    FreshIdsConcat(ph.events, sweep, st.idCounter, ph.idCounter, ph.idCounter);
  }

  lemma ScanValid(p: Patterns, st: State, rows: seq<GameRow>, reg: map<string, GameInfo>, sweep: seq<Event>, order: seq<string>)
    requires Valid(st)
    requires Swept(RowPhase(Start(st), Classify(p, rows)), reg, sweep, order)
    ensures Valid(State(reg, RowPhase(Start(st), Classify(p, rows)).idCounter))
    ensures forall e :: e in RowPhase(Start(st), Classify(p, rows)).events + sweep ==>
      e.info.botName in st.registry.Keys + WatchedBots(p, rows)
  {
    var cs := Classify(p, rows);
    var ph := RowPhase(Start(st), cs);
    ClassifyBotNames(p, rows);
    RowPhaseValid(Start(st), cs);
    SweepBots(sweep, order, ph.registry, ph.seen);
    forall e | e in ph.events ensures e.info.botName in BotNames(cs) {
      var i :| 0 <= i < |ph.events| && ph.events[i] == e;
    }
  }

  /** Every removal of the sweep concerns a bot the registry tracked. */
  lemma SweepBots(sweep: seq<Event>, order: seq<string>, reg: map<string, GameInfo>, seen: set<string>)
    requires IsSweep(sweep, order, reg, seen)
    requires forall k :: k in reg ==> reg[k].botName == k
    ensures forall e :: e in sweep ==> e.info.botName in reg
  {
    forall e | e in sweep ensures e.info.botName in reg {
      var i :| 0 <= i < |sweep| && sweep[i] == e;
      assert e.info == reg[order[i]];
    }
  }

  /** A bot whose entry already says what its row says: the row loop leaves
      it as it is and fires nothing. */
  lemma {:induction false} RowPhaseQuiet(ph: Phase, cs: seq<Classified>)
    requires forall i :: 0 <= i < |cs| ==>
      cs[i].row.botName in ph.registry && Describes(ph.registry[cs[i].row.botName], cs[i])
    ensures RowPhase(ph, cs).events == ph.events
    ensures RowPhase(ph, cs).registry == ph.registry
    decreases |cs|
  {
    if |cs| > 0 {
      var ph1 := ApplyRow(ph, cs[0]);
      assert ph1 == ph.(seen := ph.seen + {cs[0].row.botName});
      assert forall i :: 0 <= i < |cs[1..]| ==> cs[1..][i] == cs[i + 1];
      RowPhaseQuiet(ph1, cs[1..]);
    }
  }

  /** A poll that shows every tracked bot again with the same type, title and
      count, and no other watched game, fires no event and changes no entry:
      the same game list on the next tick is silent. */
  lemma ScanQuiet(p: Patterns, st: State, rows: seq<GameRow>, sweep: seq<Event>, order: seq<string>)
    requires st.registry.Keys <= WatchedBots(p, rows)
    requires forall i :: 0 <= i < |rows| && ShouldWatch(p, rows[i].currentGame).Some? ==>
      rows[i].botName in st.registry
      && Describes(st.registry[rows[i].botName], Classified(rows[i], ShouldWatch(p, rows[i].currentGame).value))
    requires IsSweep(sweep, order, RowPhase(Start(st), Classify(p, rows)).registry, RowPhase(Start(st), Classify(p, rows)).seen)
    ensures RowPhase(Start(st), Classify(p, rows)).events + sweep == []
    ensures RowPhase(Start(st), Classify(p, rows)).registry == st.registry
  {
    var cs := Classify(p, rows);
    ClassifyRepeats(p, st.registry, rows);
    RowPhaseQuiet(Start(st), cs);
    ClassifyBotNames(p, rows);
    var ph := RowPhase(Start(st), cs);
    assert ph.registry == st.registry;
    assert ph.seen == {} + BotNames(cs);
    assert ph.registry.Keys <= ph.seen;
    SweepEmpty(sweep, order, ph.registry, ph.seen);
  }

  /** Rows that repeat the registry still do so once classified. */
  lemma ClassifyRepeats(p: Patterns, reg: map<string, GameInfo>, rows: seq<GameRow>)
    requires forall i :: 0 <= i < |rows| && ShouldWatch(p, rows[i].currentGame).Some? ==>
      rows[i].botName in reg
      && Describes(reg[rows[i].botName], Classified(rows[i], ShouldWatch(p, rows[i].currentGame).value))
    ensures forall i :: 0 <= i < |Classify(p, rows)| ==>
      Classify(p, rows)[i].row.botName in reg && Describes(reg[Classify(p, rows)[i].row.botName], Classify(p, rows)[i])
  {
    var cs := Classify(p, rows);
    forall i | 0 <= i < |cs|
      ensures cs[i].row.botName in reg && Describes(reg[cs[i].row.botName], cs[i])
    {
      var j :| 0 <= j < |rows| && rows[j] == cs[i].row;
      assert cs[i] == Classified(rows[j], ShouldWatch(p, rows[j].currentGame).value);
    }
  }

  /** A sweep only removes, so it hosts no id. */
  lemma SweepFresh(sweep: seq<Event>, order: seq<string>, reg: map<string, GameInfo>, seen: set<string>, n: nat)
    requires IsSweep(sweep, order, reg, seen)
    ensures FreshIds(sweep, n, n)
  {
    assert forall i :: 0 <= i < |sweep| ==> sweep[i].Removed?;
  }

  /** The sweep leaves the row loop's registry restricted to the seen bots. */
  lemma SweptRegistry(ph: Phase, reg: map<string, GameInfo>)
    requires reg.Keys == ph.registry.Keys * ph.seen
    requires forall k :: k in reg ==> reg[k] == ph.registry[k]
    ensures reg == (map k | k in ph.registry && k in ph.seen :: ph.registry[k])
  {
  }

  /** Nothing to sweep when every tracked bot was seen. */
  lemma SweepEmpty(sweep: seq<Event>, order: seq<string>, reg: map<string, GameInfo>, seen: set<string>)
    requires IsSweep(sweep, order, reg, seen) && reg.Keys <= seen
    ensures sweep == []
  {
    if |order| > 0 {
      SweepHead(sweep, order, reg, seen);
      assert false;
    }
  }

  lemma SweepHead(sweep: seq<Event>, order: seq<string>, reg: map<string, GameInfo>, seen: set<string>)
    requires IsSweep(sweep, order, reg, seen) && |order| > 0
    ensures order[0] in reg && order[0] !in seen
  {
  }
}
